=== FILE: README.md ===
# Library API: tokens, validators and handlers

A Dafny model of the decision layer of a small Flask library service.
The service keeps two SQLite tables, `books` and `members`, behind
bearer-token authentication. The model covers four pieces:

- **Tokens and the auth gate.** `create_token` builds
  `base64(json(payload)) + "." + hex(HMAC-SHA256)`, with the MAC taken over the
  base64 text. `verify_token` splits on '.', checks the MAC, decodes and
  checks expiry. `require_auth` takes the second space-separated field of the
  `Authorization` header as the token.
- **The records.** `Book` and `Member` each have `to_dict`, `from_dict` and
  `validate`. `validate` reports the first failing check, and the member's
  email rule follows Python's `re.match` with its `$` anchor.
- **The resource handlers.** The handlers of `/books` and `/members` are pure
  functions from a table and the request's inputs to the new table, a status
  and a body. Each table is a map from id to row plus the next id to hand out,
  which models `INTEGER PRIMARY KEY AUTOINCREMENT`. The tables keep a unique
  ISBN and a unique email.
- **Registration and login.** `/auth/register` and `/auth/login` over the
  members table.

Encoding, the MAC, the password digest and `int()` on text are abstracted as a
bundle of functions (`Externals.Primitives`). The proofs use only the facts in
`Externals.Lawful` about them:

- decoding undoes encoding;
- the empty text decodes to nothing;
- encoded text is base64;
- both digests are 64 lower-case hex characters.

Time (`now`), the secret and the token lifetime are parameters. `Api.Handle`
puts the gate in front of every book and member route and leaves register and
login open. `Api.Run` serves a sequence of requests from a fresh database.

Modules, in dependency order:

| module | content |
|---|---|
| `Results`, `Text`, `Json`, `Sql` | Option/Result types; Python string operations (`strip`, `split`, `in`) on `seq<char>`; request bodies; what sqlite3 can bind |
| `Externals`, `Settings`, `Http` | the abstract primitives and their laws; configuration constants; reply bodies |
| `Paging`, `Tables` | LIMIT/OFFSET paging with Python floor division; AUTOINCREMENT tables |
| `EmailPattern`, `Books`, `Members` | the records and their validators |
| `Tokens`, `AuthGate` | `create_token`, `verify_token`, `require_auth` |
| `BookRoutes`, `MemberRoutes`, `AuthRoutes`, `Api` | the handlers and the application |

Behaviour of the code that the model keeps, although a reader might expect
otherwise:

- `verify_token` turns every failure (bad format, bad signature, expired,
  undecodable payload) into one message, "Invalid token format". The split on
  '.' does not itself reject empty parts, but an empty signature never equals
  the 64-character MAC and an empty payload does not decode, so both are
  refused (`Tokens.EmptyPartRefused`).
- `per_page` is not checked:
  - `per_page = 0` divides by zero and answers 500;
  - a negative `per_page` becomes a SQLite `LIMIT` with no bound.
- The 8-character password rule in `Member.validate` sees the stored SHA-256
  digest, so it never fires for a member built by `from_dict`
  (`Members.PasswordRuleDeadAfterFromDict`).
- `require_auth` treats an empty `Authorization` header like a missing one,
  and answers a header without a space with 401 "list index out of range".
- sqlite3 binds a Python integer only if it fits a signed 64-bit INTEGER;
  otherwise it raises `OverflowError` before the statement runs, and the
  handler's `except Exception` answers 500. This covers a `page`/`per_page`
  whose LIMIT or OFFSET does not fit, a path id, a book quantity, an integer
  member name and an integer login email (`Sql.InInt64`, `Sql.Bindable`).
- AUTOINCREMENT refuses an insert once the largest 64-bit id has been handed
  out (SQLITE_FULL, an `OperationalError`), which the create and register
  handlers answer with 500 (`Tables.HasRoom`).

## Model

| member | source | states |
|---|---|---|
| Tokens.TokenShape | app/utils/auth_utils.py:10-21 | a created token is the encoded payload, exactly one '.', then the MAC of the encoded payload; the payload decodes to the subject and `now + TOKEN_EXPIRATION`; the token has no space |
| Tokens.VerifyToken | app/utils/auth_utils.py:23-38 | every failure is the single message "Invalid token format"; an accepted payload has not expired (`now <= exp`); a token without exactly one '.' is rejected |
| Tokens.VerifyCreated | app/utils/auth_utils.py:10-36 | round trip: a token verifies under the same secret to its own payload exactly while `now <= issuedAt + TTL` (so `exp == now` is accepted), and is rejected with "Invalid token format" afterwards |
| Tokens.ForgedSignatureRejected | app/utils/auth_utils.py:25-32 | a token whose second part is not the MAC of its first part is rejected, whatever the first part would decode to |
| Tokens.EmptyPartRefused | app/utils/auth_utils.py:25-38 | a token whose payload part or signature part is empty is refused with "Invalid token format" |
| Tokens.AcceptedTokensAreSigned | app/utils/auth_utils.py:23-36 | an accepted token is a '.'-free text, '.', and the MAC of that text, and the returned claims are that text decoded |
| AuthGate.Authenticate | app/utils/auth_utils.py:40-51 | a missing or empty header is 401 "No authorization header"; a header without a space is 401 "list index out of range"; every other refusal is 401, except 500 exactly when the second field verifies to a payload without `user_id` |
| AuthGate.Protect | app/utils/auth_utils.py:40-53 | a refused request keeps the state and is not 200; an admitted one is exactly the handler's reply for the payload's subject |
| AuthGate.DeniedHandlerNotRun | app/utils/auth_utils.py:43-51 | a refused request gets the same reply whatever the wrapped handler would do |
| AuthGate.SchemeNotChecked | app/utils/auth_utils.py:47 | the word before the first space never affects the decision |
| AuthGate.IssuedTokenAdmitted | app/utils/auth_utils.py:40-53 | `<scheme> <token>` with a freshly created token admits its subject until expiry and is refused with "Invalid token format" afterwards |
| AuthGate.AdmissionNeedsSignedToken | app/utils/auth_utils.py:46-52 | the handler runs only for the subject of a correctly signed, unexpired token taken from the header's second field |
| Books.ToDict | app/models/book.py:12-19 | the dictionary has exactly the five keys id, title, author, isbn, quantity |
| Books.FromDict | app/models/book.py:21-29 | title, author, isbn, quantity are required and looked up in that order, so the first missing one is reported; `id` is optional and carried over |
| Books.Validate | app/models/book.py:31-40 | the first failure in the order title, author, isbn, quantity; a whitespace-only text fails like an empty one; quantity 0 passes and a negative one fails; None exactly when all four conditions hold |
| Books.FromDictToDict | app/models/book.py:12-29 | reading a book's dictionary back gives the same book |
| Books.ToDictInjective | app/models/book.py:12-19 | different books have different dictionaries |
| Books.ToDictFromDict | app/models/book.py:12-29 | a body with string fields and an integer quantity builds a book whose dictionary gives those four values back unchanged |
| Members.ToDict | app/models/member.py:13-18 | the public view has keys id, name and email and never the password |
| Members.FromDict | app/models/member.py:24-31 | name, email, password are required in that order; the stored password is the digest of the given one; a non-string password fails |
| Members.Validate | app/models/member.py:36-48 | the first failure in the order name, email, password; a whitespace-only name is "Name is required"; the length rule applies only while `id` is None; None exactly when all hold |
| Members.FromDictPasswordChecks | app/models/member.py:24-34 | a member built from a body accepts that body's password, and accepts a candidate exactly when the candidate's digest equals the stored digest |
| Members.PasswordRuleDeadAfterFromDict | app/models/member.py:20-46 | a member built by `from_dict` never fails with the password message, because the rule sees the 64-character digest |
| Members.PasswordRuleSkippedWithId | app/models/member.py:44-46 | with an id set the password is not looked at |
| Members.ToDictHidesPassword | app/models/member.py:13-18 | the public view does not depend on the stored digest |
| Members.EmptyPasswordAccepted | app/models/member.py:24-48 | a body with a valid name and email and an empty password builds a member that passes validation |
| EmailPattern.IsValidEmail | app/models/member.py:40-42 | the check agrees with the pattern `^[A-Za-z0-9._%+-]+@[A-Za-z0-9.-]+\.[A-Za-z]{2,}$` under `re.match`, which also accepts one trailing newline |
| EmailPattern.CheckWholeCorrect | app/models/member.py:40-41 | the executable scan accepts exactly the addresses of that shape |
| EmailPattern.AcceptedEmailShape | app/models/member.py:40-42 | an accepted address has exactly one '@', a non-empty local part over `[A-Za-z0-9._%+-]`, and a last '.' followed by at least two ASCII letters |
| EmailPattern.TrailingNewlineAccepted | app/models/member.py:41 | "john@example.com" is accepted, and so is the same text with one trailing newline |
| Paging.FloorDiv | app/routes/books.py:37 | Python's `//`: the quotient rounded towards minus infinity, for either sign of divisor |
| Paging.Window | app/routes/books.py:20-21 | `LIMIT ? OFFSET ?`: a contiguous slice from the offset (a negative offset counts as 0), at most `limit` rows, no bound for a negative limit |
| Paging.Paginate | app/routes/books.py:14-40 | None (the handler's 500) exactly when `per_page` is 0 or the LIMIT `per_page` or the OFFSET `(page-1)*per_page` does not fit 64 bits; `total` is the row count; page and per_page are echoed; the items are the window at `(page-1)*per_page`; for a positive `per_page`, at most that many items and `total_pages` is the ceiling of total over per_page |
| Paging.PageIsSlice | app/routes/books.py:20-30 | a page that starts inside the rows is the slice from its offset of length `min(per_page, rest)` |
| Paging.PagesCover | app/routes/books.py:20-37 | row i appears on page `i // per_page + 1` at position `i % per_page`, so the pages together list every row |
| Paging.PagesPastTheEndAreEmpty | app/routes/books.py:20-37 | a page beyond `total_pages` is empty |
| Paging.ThreeRowsTwoPerPage | tests/test_api.py:144-165 | three rows at two per page: page 1 holds the first two, page 2 the third, total 3 and 2 pages |
| Tables.Scan | app/routes/books.py:21 | a scan without ORDER BY lists rows by ascending id |
| Tables.ScanHoldsEveryRow | app/routes/books.py:52-57 | every stored row appears in the scan |
| Tables.ScanCount | app/routes/books.py:18-19 | `COUNT(*)` equals the number of rows the scan visits |
| Tables.Insert | app/__init__.py:26 | AUTOINCREMENT: the row gets the next id, which was unused, and the counter moves past it |
| Tables.Replace | app/routes/books.py:134-137 | an UPDATE by id replaces that row only and keeps the ids and the counter |
| Tables.Delete | app/routes/books.py:157 | a DELETE by id removes that row only and keeps the counter |
| Tables.DeleteUndoesInsert | app/__init__.py:26 | deleting the row just inserted restores the rows but not the counter |
| Tables.DeletedIdNotReissued | app/__init__.py:26 | a deleted id is never handed out again |
| BookRoutes.Checked | app/routes/books.py:96-102 | an empty body is 400 "No data provided", then a build failure, then the first validation message; success yields a valid book |
| BookRoutes.ListBooks | app/routes/books.py:10-40 | page defaults to 1 and per_page to 10; 500 exactly when `per_page` is 0 or LIMIT/OFFSET do not fit 64 bits; otherwise 200 whose items are the dictionaries of the scan window at `(page-1)*per_page`, with total the scan length, page and per_page echoed and `total_pages` the floor-division ceiling; the table is unchanged |
| BookRoutes.Filter | app/routes/books.py:51-57 | the result holds exactly the books of the input whose title or author contains the query, and is no longer than the input |
| BookRoutes.FilterAppend | app/routes/books.py:51-57 | filtering a concatenation is the concatenation of the filtered parts, so the matching rows keep the order the query returns them in |
| BookRoutes.FilterKeepsOnce | app/routes/books.py:51-57 | the filtered rows are a sub-multiset of the input, so a row appears no more often than in the scan, and a repeat-free input gives a repeat-free result |
| BookRoutes.ScanDistinct | app/__init__.py:26 | under the invariant no book appears twice in a scan, since each row carries its own primary key |
| BookRoutes.SearchBooks | app/routes/books.py:42-68 | an empty query is exactly the 400 "Search query required"; any other query is 200 with a list of books (which books is `SearchIsExact`); the table is unchanged |
| BookRoutes.SearchIsExact | app/routes/books.py:51-66 | a stored book is in the search result exactly when its title or author contains the query, every result is a stored book, and no book is listed twice |
| BookRoutes.SearchPythonFindsOneBook | tests/test_api.py:113-142 | with the Python and Java books stored, "Python" answers the Python book only |
| BookRoutes.GetBook | app/routes/books.py:70-90 | 500 exactly for an id outside 64 bits; 404 "Book not found" exactly for an absent one; otherwise the row's dictionary |
| BookRoutes.CreateBook | app/routes/books.py:92-118 | validation happens before the write; a valid book whose quantity does not fit 64 bits, or a full id space, is 500; then a taken ISBN is 400 "ISBN already exists"; 201 exactly when the book is valid, bindable, there is room and its ISBN is free, and then the table gains exactly that row under the next id; any refusal leaves the table unchanged |
| BookRoutes.AddBook | app/routes/books.py:103-114 | the INSERT of a checked book: 500 when the quantity cannot be bound or no id is left, else 400 for a taken ISBN, else 201 with the row under the next id and the counter moved |
| BookRoutes.UpdateBook | app/routes/books.py:120-149 | a bad body is refused even for a missing id; then a quantity or id outside 64 bits is 500; then a missing id is 404; another row's ISBN is 400; on 200 exactly row `id` is replaced by the validated book carrying the path id |
| BookRoutes.DeleteBook | app/routes/books.py:151-165 | 500 exactly for an id outside 64 bits; 404 exactly for an absent one; otherwise exactly that row is removed; the invariant is kept |
| BookRoutes.InsertKeepsInv | app/__init__.py:24-32 | inserting a valid row with a free ISBN under the next id keeps ids issued, rows valid and ISBNs unique |
| BookRoutes.ReplaceKeepsInv | app/routes/books.py:134-145 | replacing a row with a valid one whose ISBN no other row holds keeps the invariant |
| BookRoutes.CreatePreservesInv | app/routes/books.py:92-118 | every create keeps the books invariant |
| BookRoutes.UpdatePreservesInv | app/routes/books.py:120-149 | every update keeps the books invariant |
| BookRoutes.DeletePreservesInv | app/routes/books.py:151-165 | every delete keeps the books invariant |
| BookRoutes.ListTotalIsRowCount | app/routes/books.py:18-19 | under the invariant a listing whose `per_page` is non-zero and whose LIMIT and OFFSET fit 64 bits succeeds, and its total is the number of rows |
| BookRoutes.ListThreeBooksTwoPerPage | tests/test_api.py:144-165 | three books at `per_page = 2`: two items, total 3, two pages, page 1 |
| BookRoutes.CreateThenGet | app/routes/books.py:70-112 | a created book is served back under its new id with the same body |
| BookRoutes.CreateThenDelete | app/routes/books.py:151-163 | deleting a just-created book restores the rows; its id stays used up |
| BookRoutes.CreateDuplicateIsbnRejected | app/routes/books.py:113-114 | a valid book whose ISBN a row holds is refused with 400 "ISBN already exists" when the insert can be attempted (quantity bindable, room left), else 500; nothing changes |
| BookRoutes.UpdateDuplicateIsbnRejected | app/routes/books.py:144-145 | updating a row to the ISBN of another row is refused with 400 "ISBN already exists" when quantity and id are bindable, else 500; nothing changes |
| MemberRoutes.ListMembers | app/routes/members.py:10-39 | the books paging over members: 500 exactly for `per_page = 0` or LIMIT/OFFSET outside 64 bits, otherwise the public views of the scan window with the same four numbers; no listed item carries a password |
| MemberRoutes.GetMember | app/routes/members.py:40-57 | 500 exactly for an id outside 64 bits; 404 exactly for an absent one; otherwise id, name and email, never the password |
| MemberRoutes.Updated | app/routes/members.py:67-81 | only name and password move: the name as the text sqlite3 stores for the bound value, the password as its digest; id and email stay |
| MemberRoutes.UpdateMember | app/routes/members.py:58-95 | an empty body is 400; an `email` key is 400 "Email cannot be updated" whatever its value; neither name nor password is 400 "No valid fields to update"; a non-string password is 500 (hashing fails); an id or integer name outside 64 bits is 500 before the lookup; an absent id is 404; a `null` name on an existing row is 500 (`name NOT NULL`); only 200 changes the table, and then only row `id` |
| MemberRoutes.DeleteMember | app/routes/members.py:96-110 | 500 exactly for an id outside 64 bits; 404 exactly for an absent one; otherwise exactly that row is removed; the invariant is kept |
| MemberRoutes.UpdateKeepsEmails | app/routes/members.py:80-93 | no update changes any member's email or the set of ids, and the invariant survives |
| MemberRoutes.UpdateStoresDigest | app/routes/members.py:72-74 | an updated password is stored as its digest, checks against the new password, and is not in the reply |
| MemberRoutes.UpdateAcceptsEmptyName | app/routes/members.py:69-71 | an empty name is stored although `validate` would reject it |
| MemberRoutes.UpdateStoresIntegerNameAsText | app/routes/members.py:69-81 | an integer name is accepted and stored in the TEXT column as its decimal digits, leaving the password alone |
| MemberRoutes.UpdateIgnoresOtherKeys | app/routes/members.py:67-76 | adding a key other than name, password and email changes nothing, except that a body of only such keys is 400 "No valid fields to update" |
| AuthRoutes.Applicant | app/routes/auth.py:13-26 | an empty body, then name, email, password in that order ("Missing required field: <field>"), then `from_dict`, then the first validation message; success yields a member with a valid email |
| AuthRoutes.Register | app/routes/auth.py:10-53 | any refusal leaves the table unchanged; a valid applicant with no id left is 500; a taken email is 400 "Email already exists"; 201 exactly when the applicant is valid, there is room and the email is free, and then the row goes in under the next id with a token for that id and the public view |
| AuthRoutes.FindFrom | app/routes/auth.py:65-66 | a found key holds the email and no earlier key in the scan does (`fetchone()` takes the first); none means no listed row has it |
| AuthRoutes.FindByEmail | app/routes/auth.py:65-66 | a found id holds the email; no result means no row holds it |
| AuthRoutes.Login | app/routes/auth.py:55-90 | a missing email or password is exactly 400 "Email and password required"; an integer email outside 64 bits is 500; an email no row holds is 401 "Invalid email or password"; a stored email with a password that is not a string is 500, because hashing it fails; 200 only for a stored member whose email is the bound email text and whose digest matches, with a token for its id and its public view; the table is only read |
| AuthRoutes.LoginIntegerEmailRefused | app/routes/auth.py:65-69 | an integer email binds as digits, which no stored email equals, so the login is 401 "Invalid email or password" |
| AuthRoutes.InsertKeepsInv | app/__init__.py:33-40 | inserting a member under the next id with a valid, free email keeps the members invariant |
| AuthRoutes.RegisterPreservesInv | app/routes/auth.py:31-40 | every registration keeps the members invariant |
| AuthRoutes.RegisterDuplicateEmailRejected | app/routes/auth.py:38-40 | a valid applicant with an email already stored is refused with 400 "Email already exists" while ids are left (else 500) and nothing changes |
| AuthRoutes.RegisteredTokenAdmits | app/routes/auth.py:44-50 | the token returned by a registration admits exactly the new id until it expires |
| AuthRoutes.RegisteredMemberIsServed | app/routes/members.py:40-57 | after a registration, getting the new id answers 200 with the same public view the registration returned |
| AuthRoutes.RegisterAcceptsEmptyPassword | app/routes/auth.py:22-26 | a registration with an empty password succeeds |
| AuthRoutes.LoginFailuresLookAlike | app/routes/auth.py:69-80 | an unknown email and a wrong password for a known one both give the same 401 "Invalid email or password" |
| AuthRoutes.LoginSucceeds | app/routes/auth.py:82-87 | the right password for a stored email logs in with a token for that row's id and its public view |
| AuthRoutes.RegisterThenLogin | tests/test_api.py:65-76 | registering then logging in with the same email and password answers 200 with a token for the new id |
| Api.InitialStore | app/__init__.py:20-42 | a fresh database satisfies both tables' invariants |
| Api.Dispatch | app/__init__.py:14-17 | book routes touch only the books table, member routes only the members table, and reads touch nothing |
| Api.Handle | app/utils/auth_utils.py:40-53 | open routes run directly; a protected route runs its handler exactly when the gate admits; a refused request keeps the state and is never 200 or 201; no header is 401 |
| Api.DispatchPreservesInv | app/__init__.py:24-40 | every route keeps both tables' invariants |
| Api.HandlePreservesInv | app/__init__.py:24-40 | every request, admitted or not, keeps both invariants |
| Api.RegisteredTokenOpensProtectedRoutes | tests/test_api.py:30-38 | the token from a registration, sent as `Bearer <token>` or after any other word, opens every protected route until it expires |
| Api.RunPreservesInv | app/__init__.py:24-40 | after any sequence of requests from a fresh database, ids are issued by the tables, rows are valid, and ISBNs and emails are unique |

## Left out

- Flask itself is not modelled: routing, blueprints, `jsonify`, the `request`
  globals and JSON parsing. Only JSON object bodies are modelled: a map from
  keys to a string, an integer or `null`, where `{}` is the empty map. Floats,
  booleans, arrays and nested objects as values are not modelled. Two
  differences follow:
  - a truthy body that is not an object (a non-empty array, a number, a
    string) has no counterpart in the model; in Python it answers 500 where
    the handler indexes it or tests `in` on a number, and 400 where a
    membership test on a list or string is simply false;
  - a request without a JSON body makes `request.get_json()` raise, which the
    handler's `except Exception` answers with 500; the model has no such
    request.
- Path ids are whatever integer the route receives. Flask's `<int:id>`
  converter only matches unsigned digits, so negative ids never reach the
  handlers; the model allows them and answers as for any absent id.
- The query parameters are not parsed. `page` and `per_page` arrive already
  converted; an absent or non-integer value is None and takes its default, as
  `request.args.get(..., type=int)` does. A search query `q` arrives as text,
  and an absent one is "".
- Connections, commits and the DDL of `init_db` are not modelled. The
  constraints the DDL declares are invariants of the in-memory tables:
  AUTOINCREMENT ids, `isbn UNIQUE` and `email UNIQUE`.
- Base64, JSON, HMAC-SHA256 and SHA-256 are not implemented. They are abstract
  functions with the laws in `Externals.Lawful`.
  - No unforgeability or collision resistance is assumed or claimed.
  - `hmac.compare_digest` is modelled as plain equality; its constant-time
    behaviour is out of scope.
- `time.time()` and the environment are parameters. `now` is whole seconds,
  and the secret key and token lifetime are a `Settings.Config` value; the
  defaults in `config.py` are not modelled.
- The texts of 500 replies are not modelled. The text of an arbitrary
  exception is one body, `Internal`. The 401 texts of the gate are modelled,
  because the code shows them.
- SQLite LIKE is read as a plain substring test. The model does not apply
  LIKE's `%` and `_` wildcards inside the query or its ASCII case-insensitivity.
- `BookRoutes.SearchIsExact` is weaker than the source for queries that contain
  `%` or `_`, or that differ from a title only in ASCII case; both follow from
  the LIKE reading above.
- Type errors in text fields are not placed at the exact point where Python
  raises. In Python, a non-string, truthy title, author, isbn, name or email
  raises only when `validate` reaches that field. The model raises it when the
  record is built. Both answer 500, but a body whose earlier field is blank is
  400 in Python and 500 here.
- `int()` of a book quantity is modelled for integers, strings (through the
  abstract `parseInt`) and `null` only; floats and booleans are not.
- `AuthRoutes.Login` reads the stored row under its key, setting the id to the
  key. The invariant makes the two agree.
- A token payload's `user_id` is an integer or absent. A correctly signed
  payload whose `user_id` is JSON `null` or not an integer is admitted by
  `require_auth` in Python; the model cannot represent it, and producing one
  needs the secret key. The same holds for a payload whose `exp` is a float:
  Python compares it with the clock and may admit it, while the model's
  decoder maps it to nothing.
- Strings are sequences of characters, so a JSON string holding a lone
  surrogate such as `"\ud800"` cannot be represented. In Python it reaches
  `password.encode()` or sqlite3's UTF-8 binding and answers 500.
- `request.user_id` is not modelled: the gate passes the subject to the
  handler, and no handler reads it.
- `run.py` and the test suite are not modelled. The tests are cited as the
  source of the concrete scenarios only.
- Concurrency is not modelled: requests are served one at a time, in order.

=== FILE: api.dfy ===
/**
 * The application: both tables, every route, and `require_auth` in front of
 * the book and member routes. Registration and login are open.
 */
module Api {
  import opened Results
  import opened Json
  import opened Externals
  import opened Settings
  import opened Http
  import opened Tables
  import opened AuthGate
  import Books
  import Members
  import BookRoutes
  import MemberRoutes
  import AuthRoutes

  /** The database: the `books` and `members` tables. */
  datatype Store = Store(books: BookRoutes.BookTable, members: MemberRoutes.MemberTable)

  /** A fresh database: both tables empty. */
  function InitialStore(): (st: Store)
    ensures StoreInv(st)
  {
    Store(Empty(), Empty())
  }

  predicate StoreInv(st: Store) {
    BookRoutes.Inv(st.books) && MemberRoutes.Inv(st.members)
  }

  /**
   * The routes with what Flask hands each handler: path ids, query
   * parameters already converted (None when absent or not an integer), and
   * the parsed JSON body.
   */
  datatype Route =
    | ListBooks(page: Option<int>, perPage: Option<int>)
    | SearchBooks(q: string)
    | GetBook(id: int)
    | CreateBook(data: Object)
    | UpdateBook(id: int, data: Object)
    | DeleteBook(id: int)
    | ListMembers(page: Option<int>, perPage: Option<int>)
    | GetMember(id: int)
    | UpdateMember(id: int, data: Object)
    | DeleteMember(id: int)
    | Register(data: Object)
    | Login(data: Object)

  /** A request: the `Authorization` header, if sent, and the route. */
  datatype Request = Request(authorization: Option<string>, route: Route)

  predicate Protected(route: Route) {
    !route.Register? && !route.Login?
  }

  function OnBooks(st: Store, r: Reply<BookRoutes.BookTable>): (r': Reply<Store>)
    ensures r'.state == st.(books := r.state) && r'.status == r.status && r'.body == r.body
  {
    Reply(st.(books := r.state), r.status, r.body)
  }

  function OnMembers(st: Store, r: Reply<MemberRoutes.MemberTable>): (r': Reply<Store>)
    ensures r'.state == st.(members := r.state) && r'.status == r.status && r'.body == r.body
  {
    Reply(st.(members := r.state), r.status, r.body)
  }

  /** The handler behind a route, once the gate has let the request through. */
  function Dispatch(p: Primitives, cfg: Config, now: int, st: Store, route: Route): (r: Reply<Store>)
    ensures route.CreateBook? || route.UpdateBook? || route.DeleteBook? ==> r.state.members == st.members
    ensures route.UpdateMember? || route.DeleteMember? || route.Register? ==> r.state.books == st.books
    ensures (|| route.ListBooks? || route.SearchBooks? || route.GetBook?
             || route.ListMembers? || route.GetMember? || route.Login?) ==> r.state == st
  {
    match route
    case ListBooks(page, perPage) => OnBooks(st, BookRoutes.ListBooks(st.books, page, perPage))
    case SearchBooks(q) => OnBooks(st, BookRoutes.SearchBooks(st.books, q))
    case GetBook(id) => OnBooks(st, BookRoutes.GetBook(st.books, id))
    case CreateBook(data) => OnBooks(st, BookRoutes.CreateBook(p, st.books, data))
    case UpdateBook(id, data) => OnBooks(st, BookRoutes.UpdateBook(p, st.books, id, data))
    case DeleteBook(id) => OnBooks(st, BookRoutes.DeleteBook(st.books, id))
    case ListMembers(page, perPage) => OnMembers(st, MemberRoutes.ListMembers(st.members, page, perPage))
    case GetMember(id) => OnMembers(st, MemberRoutes.GetMember(st.members, id))
    case UpdateMember(id, data) => OnMembers(st, MemberRoutes.UpdateMember(p, st.members, id, data))
    case DeleteMember(id) => OnMembers(st, MemberRoutes.DeleteMember(st.members, id))
    case Register(data) => OnMembers(st, AuthRoutes.Register(p, cfg, now, st.members, data))
    case Login(data) => OnMembers(st, AuthRoutes.Login(p, cfg, now, st.members, data))
  }

  /** The whole application on one request at time `now`. */
  function Handle(p: Primitives, cfg: Config, now: int, st: Store, req: Request): (r: Reply<Store>)
    ensures !Protected(req.route) ==> r == Dispatch(p, cfg, now, st, req.route)
    ensures Protected(req.route) && Authenticate(p, cfg, now, req.authorization).Admitted? ==>
              r == Dispatch(p, cfg, now, st, req.route)
    ensures Protected(req.route) && Authenticate(p, cfg, now, req.authorization).Denied? ==>
              r.state == st && r.status != 200 && r.status != 201
    ensures Protected(req.route) && req.authorization.None? ==>
              r == Reply(st, 401, Error(NoAuthorizationHeader))
  {
    if Protected(req.route) then
      Protect(p, cfg, now, req.authorization, st, (s: Store, userId: int) => Dispatch(p, cfg, now, s, req.route))
    else
      Dispatch(p, cfg, now, st, req.route)
  }

  /** Every route keeps both tables' invariants. */
  lemma DispatchPreservesInv(p: Primitives, cfg: Config, now: int, st: Store, route: Route)
    requires StoreInv(st)
    ensures StoreInv(Dispatch(p, cfg, now, st, route).state)
  {
    match route
    case CreateBook(data) => BookRoutes.CreatePreservesInv(p, st.books, data);
    case UpdateBook(id, data) => BookRoutes.UpdatePreservesInv(p, st.books, id, data);
    case UpdateMember(id, data) => MemberRoutes.UpdateKeepsEmails(p, st.members, id, data);
    case Register(data) => AuthRoutes.RegisterPreservesInv(p, cfg, now, st.members, data);
    case _ =>
  }

  lemma HandlePreservesInv(p: Primitives, cfg: Config, now: int, st: Store, req: Request)
    requires StoreInv(st)
    ensures StoreInv(Handle(p, cfg, now, st, req).state)
  {
    DispatchPreservesInv(p, cfg, now, st, req.route);
  }

  /**
   * The token from a registration opens every protected route until it
   * expires: the request reaches its handler as if there were no gate.
   */
  lemma RegisteredTokenOpensProtectedRoutes(p: Primitives, cfg: Config, now: int, later: int, st: Store,
                                            data: Object, scheme: string, route: Route)
    requires Lawful(p) && ' ' !in scheme && Protected(route)
    requires Handle(p, cfg, now, st, Request(None, Register(data))).status == 201
    requires later <= now + cfg.tokenExpiration
    ensures var reg := Handle(p, cfg, now, st, Request(None, Register(data)));
            Handle(p, cfg, later, reg.state, Request(Some(scheme + " " + reg.body.token), route))
              == Dispatch(p, cfg, later, reg.state, route)
  {
    AuthRoutes.RegisteredTokenAdmits(p, cfg, now, st.members, data, later, scheme);
  }

  /** The invariants of both tables hold after any sequence of requests from a fresh database. */
  lemma {:induction false} RunPreservesInv(p: Primitives, cfg: Config, times: seq<int>, reqs: seq<Request>)
    requires |times| == |reqs|
    ensures StoreInv(Run(p, cfg, times, reqs))
  {
    if reqs != [] {
      var n := |reqs| - 1;
      RunPreservesInv(p, cfg, times[..n], reqs[..n]);
      HandlePreservesInv(p, cfg, times[n], Run(p, cfg, times[..n], reqs[..n]), reqs[n]);
    }
  }

  /** The database after serving `reqs` in order, the i-th at time `times[i]`, from a fresh one. */
  function Run(p: Primitives, cfg: Config, times: seq<int>, reqs: seq<Request>): Store
    requires |times| == |reqs|
  {
    if reqs == [] then InitialStore()
    else
      var n := |reqs| - 1;
      Handle(p, cfg, times[n], Run(p, cfg, times[..n], reqs[..n]), reqs[n]).state
  }
}

=== FILE: auth_routes.dfy ===
/**
 * `/auth/register` and `/auth/login` over the `members` table: the only
 * way in, and the only issuer of tokens.
 */
module AuthRoutes {
  import opened Results
  import opened Text
  import opened Json
  import opened Externals
  import opened Settings
  import opened Http
  import opened Sql
  import opened Tables
  import opened Tokens
  import opened AuthGate
  import opened EmailPattern
  import opened Members
  import opened MemberRoutes

  const RegistrationSuccessful := "Registration successful"
  const EmailExists := "Email already exists"
  const CredentialsRequired := "Email and password required"
  const InvalidCredentials := "Invalid email or password"

  /** Register's own check names the field without quotes. */
  function MissingField(field: string): string {
    "Missing required field: " + field
  }

  /** Some row already holds `email`, so inserting it again violates `email UNIQUE`. */
  predicate EmailTaken(t: MemberTable, email: string) {
    exists k | k in t.rows :: t.rows[k].email == email
  }

  /**
   * The checks of `POST /auth/register` before the insert: a non-empty
   * body, the required fields in the order name, email, password, then
   * `from_dict` (which hashes the password) and `validate`.
   */
  function Applicant(p: Primitives, data: Object): (r: Result<Member, Refusal>)
    ensures data == map[] ==> r == Err(Refusal(400, Error(NoDataProvided)))
    ensures data != map[] && "name" !in data ==> r == Err(Refusal(400, Error(MissingField("name"))))
    ensures data != map[] && "name" in data && "email" !in data ==> r == Err(Refusal(400, Error(MissingField("email"))))
    ensures data != map[] && "name" in data && "email" in data && "password" !in data ==>
              r == Err(Refusal(400, Error(MissingField("password"))))
    ensures FromDict(p, data).Ok? && Validate(FromDict(p, data).value).Some? ==>
              r == Err(Refusal(400, Error(Validate(FromDict(p, data).value).value)))
    ensures r.Ok? <==> FromDict(p, data).Ok? && Validate(FromDict(p, data).value).None?
    ensures r.Ok? ==> r.value == FromDict(p, data).value && IsValidEmail(r.value.email)
    ensures r.Err? ==> r.error.status == 400 || r.error == Refusal(500, Internal)
  {
    if data == map[] then Err(Refusal(400, Error(NoDataProvided)))
    else if "name" !in data then Err(Refusal(400, Error(MissingField("name"))))
    else if "email" !in data then Err(Refusal(400, Error(MissingField("email"))))
    else if "password" !in data then Err(Refusal(400, Error(MissingField("password"))))
    else
      match FromDict(p, data)
      case Err(_) => Err(Refusal(500, Internal))
      case Ok(m) =>
        match Validate(m)
        case Some(e) => Err(Refusal(400, Error(e)))
        case None => Ok(m)
  }

  /**
   * `POST /auth/register`: the checks, the insert, and a token for the new id.
   * The insert allocates the id before `email UNIQUE` is checked.
   */
  function Register(p: Primitives, cfg: Config, now: int, t: MemberTable, data: Object): (r: Reply<MemberTable>)
    ensures Applicant(p, data).Err? ==> r == Reply(t, Applicant(p, data).error.status, Applicant(p, data).error.body)
    ensures Applicant(p, data).Ok? && !HasRoom(t) ==> r == Reply(t, 500, Internal)
    ensures Applicant(p, data).Ok? && HasRoom(t) && EmailTaken(t, Applicant(p, data).value.email) ==>
              r == Reply(t, 400, Error(EmailExists))
    ensures r.status != 201 ==> r.state == t
    ensures r.status == 201 <==> Applicant(p, data).Ok? && HasRoom(t) && !EmailTaken(t, Applicant(p, data).value.email)
    ensures r.status == 201 ==>
              var row := Applicant(p, data).value.(id := Some(t.nextId));
              && r.state == Insert(t, row).0
              && r.body == Registered(RegistrationSuccessful, CreateToken(p, cfg, now, t.nextId), ToDict(row))
  {
    match Applicant(p, data)
    case Err(no) => Reply(t, no.status, no.body)
    case Ok(m) =>
      if !HasRoom(t) then Reply(t, 500, Internal)
      else if EmailTaken(t, m.email) then Reply(t, 400, Error(EmailExists))
      else
        var row := m.(id := Some(t.nextId));
        Reply(Insert(t, row).0, 201, Registered(RegistrationSuccessful, CreateToken(p, cfg, now, t.nextId), ToDict(row)))
  }

  /** The first row in scan order whose email is `email` (`fetchone()`). */
  function FindFrom(t: MemberTable, ks: seq<int>, email: string): (r: Option<int>)
    requires forall i | 0 <= i < |ks| :: ks[i] in t.rows
    ensures r.Some? ==> r.value in ks && r.value in t.rows && t.rows[r.value].email == email
    ensures r.Some? ==> exists j | 0 <= j < |ks| :: ks[j] == r.value && forall i | 0 <= i < j :: t.rows[ks[i]].email != email
    ensures r.None? ==> forall i | 0 <= i < |ks| :: t.rows[ks[i]].email != email
  {
    if ks == [] then None
    else if t.rows[ks[0]].email == email then Some(ks[0])
    else FindFrom(t, ks[1..], email)
  }

  function FindByEmail(t: MemberTable, email: string): (r: Option<int>)
    ensures r.Some? ==> r.value in t.rows && t.rows[r.value].email == email
    ensures IdsIssued(t) && r.None? ==> !EmailTaken(t, email)
  {
    FindFrom(t, Ids(t), email)
  }

  /**
   * `POST /auth/login`: both keys must be present; an email sqlite3 cannot
   * bind fails the query; an unknown email and a wrong password give the
   * same 401; a password that is not a string fails to hash once a row is
   * found. The table is only read.
   */
  function Login(p: Primitives, cfg: Config, now: int, t: MemberTable, data: Object): (r: Reply<MemberTable>)
    ensures r.state == t
    ensures "email" !in data || "password" !in data <==> r == Reply(t, 400, Error(CredentialsRequired))
    ensures "email" in data && "password" in data && !Bindable(data["email"]) ==> r == Reply(t, 500, Internal)
    ensures "email" in data && "password" in data && Bindable(data["email"])
            && (BoundText(data["email"]).None? || FindByEmail(t, BoundText(data["email"]).value).None?) ==>
              r == Reply(t, 401, Error(InvalidCredentials))
    ensures "email" in data && "password" in data && Bindable(data["email"])
            && BoundText(data["email"]).Some? && FindByEmail(t, BoundText(data["email"]).value).Some?
            && !data["password"].Str? ==>
              r == Reply(t, 500, Internal)
    ensures r.status == 200 ==>
              && "password" in data && data["password"].Str?
              && exists k | k in t.rows ::
                   && Some(t.rows[k].email) == BoundText(data["email"])
                   && CheckPassword(p, t.rows[k], data["password"].s)
                   && r.body == LoggedIn(CreateToken(p, cfg, now, k), ToDict(t.rows[k].(id := Some(k))))
    ensures r.status in {200, 400, 401, 500}
  {
    if data == map[] || "email" !in data || "password" !in data then Reply(t, 400, Error(CredentialsRequired))
    else if !Bindable(data["email"]) then Reply(t, 500, Internal)
    else
      var found := match BoundText(data["email"]) case None => None case Some(e) => FindByEmail(t, e);
      match found
      case None => Reply(t, 401, Error(InvalidCredentials))
      case Some(k) =>
        var m := t.rows[k].(id := Some(k));
        if !data["password"].Str? then Reply(t, 500, Internal)
        else if !CheckPassword(p, m, data["password"].s) then Reply(t, 401, Error(InvalidCredentials))
        else Reply(t, 200, LoggedIn(CreateToken(p, cfg, now, k), ToDict(m)))
  }

  // ---------------------------------------------------------------------------
  // Properties of the flow
  // ---------------------------------------------------------------------------

  /** Adding a member under the next id, with a valid email no row holds, keeps the invariant. */
  lemma InsertKeepsInv(t: MemberTable, row: Member)
    requires Inv(t) && row.id == Some(t.nextId) && IsValidEmail(row.email) && !EmailTaken(t, row.email)
    ensures Inv(Insert(t, row).0)
  {
    var t' := Insert(t, row).0;
    forall j, k | j in t'.rows && k in t'.rows && j != k ensures t'.rows[j].email != t'.rows[k].email {
      if j == t.nextId {
        assert k in t.rows && t'.rows[k] == t.rows[k];
      } else if k == t.nextId {
        assert j in t.rows && t'.rows[j] == t.rows[j];
      }
    }
  }

  lemma RegisterPreservesInv(p: Primitives, cfg: Config, now: int, t: MemberTable, data: Object)
    requires Inv(t)
    ensures Inv(Register(p, cfg, now, t, data).state)
  {
    var r := Register(p, cfg, now, t, data);
    if r.status == 201 {
      var row := Applicant(p, data).value.(id := Some(t.nextId));
      InsertKeepsInv(t, row);
      assert r.state == Insert(t, row).0;
    } else {
      assert r.state == t;
    }
  }

  /**
   * Registering an email some member already has is refused and nothing
   * changes; the insert only gets that far while the table has room.
   */
  lemma RegisterDuplicateEmailRejected(p: Primitives, cfg: Config, now: int, t: MemberTable, data: Object, k: int)
    requires FromDict(p, data).Ok? && Validate(FromDict(p, data).value).None?
    requires k in t.rows && t.rows[k].email == FromDict(p, data).value.email
    ensures Applicant(p, data).Ok?
    ensures Register(p, cfg, now, t, data)
              == if HasRoom(t) then Reply(t, 400, Error(EmailExists)) else Reply(t, 500, Internal)
  {
  }

  /**
   * The token a registration returns names the new member: presented after
   * any scheme word it admits exactly that id until it expires.
   */
  lemma RegisteredTokenAdmits(p: Primitives, cfg: Config, now: int, t: MemberTable, data: Object,
                              later: int, scheme: string)
    requires Lawful(p) && ' ' !in scheme
    requires Register(p, cfg, now, t, data).status == 201
    requires later <= now + cfg.tokenExpiration
    ensures Authenticate(p, cfg, later, Some(scheme + " " + Register(p, cfg, now, t, data).body.token))
            == Admitted(t.nextId)
  {
    var token := Register(p, cfg, now, t, data).body.token;
    assert token == CreateToken(p, cfg, now, t.nextId);
    IssuedTokenAdmitted(p, cfg, now, t.nextId, later, scheme);
  }

  /** After a registration, `GET /members/<new id>` serves the view the registration returned. */
  lemma RegisteredMemberIsServed(p: Primitives, cfg: Config, now: int, t: MemberTable, data: Object)
    requires Register(p, cfg, now, t, data).status == 201
    ensures var reg := Register(p, cfg, now, t, data);
            GetMember(reg.state, t.nextId) == Reply(reg.state, 200, Record(reg.body.member))
  {
  }

  /**
   * An integer email binds as its decimal digits, which hold no '@'; every
   * stored email holds one, so the login is refused like an unknown address.
   */
  lemma LoginIntegerEmailRefused(p: Primitives, cfg: Config, now: int, t: MemberTable, n: int, password: Value)
    requires Inv(t) && InInt64(n)
    ensures Login(p, cfg, now, t, map["email" := Int(n), "password" := password])
              == Reply(t, 401, Error(InvalidCredentials))
  {
    var d := DecimalText(n);
    assert '@' !in d;
    forall k | k in t.rows
      ensures t.rows[k].email != d
    {
      var e := t.rows[k].email;
      AcceptedEmailShape(e);
      var i := FirstIndex(Core(e), '@').value;
      assert e[i] == '@';
    }
  }

  /**
   * An empty password is accepted at registration: the length rule sees
   * the digest, never the plaintext.
   */
  lemma RegisterAcceptsEmptyPassword(p: Primitives, cfg: Config, now: int, t: MemberTable, name: string, email: string)
    requires Lawful(p)
    requires !Blank(name) && IsValidEmail(email) && !EmailTaken(t, email) && HasRoom(t)
    ensures Register(p, cfg, now, t, map["name" := Str(name), "email" := Str(email), "password" := Str("")]).status == 201
  {
    EmptyPasswordAccepted(p, name, email);
  }

  /** An unknown email and a wrong password for a known one give the same reply. */
  lemma LoginFailuresLookAlike(p: Primitives, cfg: Config, now: int, t: MemberTable,
                               unknown: string, k: int, wrong: string, password: string)
    requires Inv(t)
    requires !EmailTaken(t, unknown)
    requires k in t.rows && !CheckPassword(p, t.rows[k], wrong)
    ensures Login(p, cfg, now, t, map["email" := Str(unknown), "password" := Str(password)])
            == Reply(t, 401, Error(InvalidCredentials))
    ensures Login(p, cfg, now, t, map["email" := Str(t.rows[k].email), "password" := Str(wrong)])
            == Reply(t, 401, Error(InvalidCredentials))
  {
    var k' := FindByEmail(t, t.rows[k].email).value;
    assert k' == k;
  }

  /** The right password for a stored email logs in as that row. */
  lemma LoginSucceeds(p: Primitives, cfg: Config, now: int, t: MemberTable, k: int, password: string)
    requires Inv(t) && k in t.rows && CheckPassword(p, t.rows[k], password)
    ensures Login(p, cfg, now, t, map["email" := Str(t.rows[k].email), "password" := Str(password)])
            == Reply(t, 200, LoggedIn(CreateToken(p, cfg, now, k), ToDict(t.rows[k])))
  {
    var data := map["email" := Str(t.rows[k].email), "password" := Str(password)];
    assert data["email"] == Str(t.rows[k].email) && data["password"] == Str(password);
    var found := FindByEmail(t, t.rows[k].email);
    assert EmailTaken(t, t.rows[k].email);
    assert found.value == k;
    assert t.rows[k].(id := Some(k)) == t.rows[k];
  }

  /**
   * Registering and then logging in with the same email and password
   * succeeds, with a token for the new id and the new member's public view.
   */
  lemma RegisterThenLogin(p: Primitives, cfg: Config, now: int, later: int, t: MemberTable,
                          data: Object, email: string, password: string)
    requires Inv(t)
    requires "email" in data && data["email"] == Str(email)
    requires "password" in data && data["password"] == Str(password)
    requires Register(p, cfg, now, t, data).status == 201
    ensures var reg := Register(p, cfg, now, t, data);
            Login(p, cfg, later, reg.state, map["email" := Str(email), "password" := Str(password)])
              == Reply(reg.state, 200, LoggedIn(CreateToken(p, cfg, later, t.nextId), reg.body.member))
  {
    var reg := Register(p, cfg, now, t, data);
    var t' := reg.state;
    var row := Applicant(p, data).value.(id := Some(t.nextId));
    RegisterPreservesInv(p, cfg, now, t, data);
    assert t'.rows[t.nextId] == row && row.email == email;
    assert CheckPassword(p, row, password);
    LoginSucceeds(p, cfg, later, t', t.nextId, password);
  }
}

=== FILE: book.dfy ===
/** The `Book` record: its dictionary form and its first-failure validator. */
module Books {
  import opened Results
  import opened Text
  import opened Json
  import opened Externals

  datatype Book = Book(id: Option<int>, title: string, author: string, isbn: string, quantity: int)

  const TitleRequired := "Title is required"
  const AuthorRequired := "Author is required"
  const IsbnRequired := "ISBN is required"
  const NegativeQuantity := "Quantity cannot be negative"

  /** The conditions a stored book meets: three non-blank text fields and a non-negative quantity. */
  predicate ValidBook(b: Book) {
    !Blank(b.title) && !Blank(b.author) && !Blank(b.isbn) && b.quantity >= 0
  }

  /** `to_dict()`: the five attributes under their own names. */
  function ToDict(b: Book): (d: Object)
    ensures d.Keys == {"id", "title", "author", "isbn", "quantity"}
  {
    map["id" := (if b.id.Some? then Int(b.id.value) else Null),
        "title" := Str(b.title),
        "author" := Str(b.author),
        "isbn" := Str(b.isbn),
        "quantity" := Int(b.quantity)]
  }

  /** `int(data['quantity'])`. */
  function QuantityValue(p: Primitives, v: Value): Option<int> {
    match v
    case Int(i) => Some(i)
    case Str(s) => p.parseInt(s)
    case Null => None
  }

  /**
   * `Book.from_dict(data)`: `id` optional; `title`, `author`, `isbn`,
   * `quantity` required and looked up in that order, so the first missing
   * one is the KeyError reported.
   */
  function FromDict(p: Primitives, data: Object): (r: Result<Book, Fault>)
    ensures "title" !in data ==> r == Err(MissingKey("title"))
    ensures "title" in data && "author" !in data ==> r == Err(MissingKey("author"))
    ensures "title" in data && "author" in data && "isbn" !in data ==> r == Err(MissingKey("isbn"))
    ensures "title" in data && "author" in data && "isbn" in data && "quantity" !in data
            ==> r == Err(MissingKey("quantity"))
    ensures r.Ok? ==> r.value.id == IdField(data)
    ensures r.Ok? ==> forall key | key in {"title", "author", "isbn", "quantity"} :: key in data
  {
    if "title" !in data then Err(MissingKey("title"))
    else if "author" !in data then Err(MissingKey("author"))
    else if "isbn" !in data then Err(MissingKey("isbn"))
    else if "quantity" !in data then Err(MissingKey("quantity"))
    else
      match (TextValue(data["title"]), TextValue(data["author"]), TextValue(data["isbn"]),
             QuantityValue(p, data["quantity"]))
      case (Ok(title), Ok(author), Ok(isbn), Some(quantity)) =>
        Ok(Book(IdField(data), title, author, isbn, quantity))
      case _ => Err(Crash)
  }

  /**
   * `validate()`: the first failing check in the order title, author, isbn,
   * quantity; a whitespace-only text field fails like an empty one, and a
   * zero quantity passes.
   */
  function Validate(b: Book): (r: Option<string>)
    ensures r == Some(TitleRequired) <==> Blank(b.title)
    ensures r == Some(AuthorRequired) <==> !Blank(b.title) && Blank(b.author)
    ensures r == Some(IsbnRequired) <==> !Blank(b.title) && !Blank(b.author) && Blank(b.isbn)
    ensures r == Some(NegativeQuantity) <==>
              !Blank(b.title) && !Blank(b.author) && !Blank(b.isbn) && b.quantity < 0
    ensures r.None? <==> ValidBook(b)
  {
    if b.title == "" || |Strip(b.title)| == 0 then Some(TitleRequired)
    else if b.author == "" || |Strip(b.author)| == 0 then Some(AuthorRequired)
    else if b.isbn == "" || |Strip(b.isbn)| == 0 then Some(IsbnRequired)
    else if b.quantity < 0 then Some(NegativeQuantity)
    else None
  }

  /** The dictionary form of a book reads back as the same book. */
  lemma FromDictToDict(p: Primitives, b: Book)
    ensures FromDict(p, ToDict(b)) == Ok(b)
  {
  }

  /** Different books have different dictionary forms. */
  lemma ToDictInjective(b1: Book, b2: Book)
    requires ToDict(b1) == ToDict(b2)
    ensures b1 == b2
  {
    assert ToDict(b1)["id"] == ToDict(b2)["id"];
    assert ToDict(b1)["title"] == ToDict(b2)["title"];
    assert ToDict(b1)["author"] == ToDict(b2)["author"];
    assert ToDict(b1)["isbn"] == ToDict(b2)["isbn"];
    assert ToDict(b1)["quantity"] == ToDict(b2)["quantity"];
  }

  /**
   * A body whose four fields are strings and an integer builds the book
   * carrying exactly those values, and `to_dict` gives them back unchanged.
   */
  lemma ToDictFromDict(p: Primitives, data: Object, title: string, author: string, isbn: string, quantity: int)
    requires "title" in data && data["title"] == Str(title)
    requires "author" in data && data["author"] == Str(author)
    requires "isbn" in data && data["isbn"] == Str(isbn)
    requires "quantity" in data && data["quantity"] == Int(quantity)
    ensures FromDict(p, data).Ok?
    ensures var d := ToDict(FromDict(p, data).value);
            d["title"] == Str(title) && d["author"] == Str(author) && d["isbn"] == Str(isbn)
            && d["quantity"] == Int(quantity)
  {
  }
}

=== FILE: book_routes.dfy ===
/**
 * The `/books` handlers over the `books` table: each takes the table and the
 * request's inputs and returns the new table, a status and a body.
 */
module BookRoutes {
  import opened Results
  import opened Text
  import opened Json
  import opened Externals
  import opened Settings
  import opened Http
  import opened Paging
  import opened Sql
  import opened Tables
  import opened Books

  type BookTable = Table<Book>

  const BookNotFound := "Book not found"
  const IsbnExists := "ISBN already exists"
  const SearchQueryRequired := "Search query required"
  const BookDeleted := "Book deleted successfully"

  /**
   * What the table guarantees: ids issued by the table and stored in the
   * row, every row valid, and `isbn UNIQUE`.
   */
  predicate Inv(t: BookTable) {
    && IdsIssued(t)
    && (forall k | k in t.rows :: t.rows[k].id == Some(k) && ValidBook(t.rows[k]))
    && (forall j, k | j in t.rows && k in t.rows && j != k :: t.rows[j].isbn != t.rows[k].isbn)
  }

  /** A row other than `except` already holds `isbn`, so writing it violates `isbn UNIQUE`. */
  predicate IsbnTaken(t: BookTable, isbn: string, except: Option<int>) {
    exists k | k in t.rows :: Some(k) != except && t.rows[k].isbn == isbn
  }

  /** `str(KeyError(key))` quotes the key. */
  function MissingFieldMessage(key: string): string {
    "Missing required field: '" + key + "'"
  }

  /** The answer to a failed `Book.from_dict`: KeyError is 400, anything else 500. */
  function FaultRefusal(f: Fault): Refusal {
    match f
    case MissingKey(key) => Refusal(400, Error(MissingFieldMessage(key)))
    case Crash => Refusal(500, Internal)
  }

  /**
   * The steps create and update share before touching the table: the body
   * must be non-empty, `from_dict` must succeed, and `validate` must pass.
   */
  function Checked(p: Primitives, data: Object): (r: Result<Book, Refusal>)
    ensures data == map[] ==> r == Err(Refusal(400, Error(NoDataProvided)))
    ensures data != map[] && FromDict(p, data).Err? ==> r == Err(FaultRefusal(FromDict(p, data).error))
    ensures data != map[] && FromDict(p, data).Ok? && Validate(FromDict(p, data).value).Some? ==>
              r == Err(Refusal(400, Error(Validate(FromDict(p, data).value).value)))
    ensures r.Ok? <==> data != map[] && FromDict(p, data).Ok? && Validate(FromDict(p, data).value).None?
    ensures r.Ok? ==> r.value == FromDict(p, data).value && ValidBook(r.value)
    ensures r.Err? ==> r.error.status == 400 || r.error.status == 500
  {
    if data == map[] then Err(Refusal(400, Error(NoDataProvided)))
    else
      match FromDict(p, data)
      case Err(f) => Err(FaultRefusal(f))
      case Ok(b) =>
        match Validate(b)
        case Some(e) => Err(Refusal(400, Error(e)))
        case None => Ok(b)
  }

  /**
   * `GET /books?page=&per_page=`; an absent or non-integer parameter takes its
   * default. The reply is the window of the scan at `(page - 1) * per_page`,
   * the row count and `ceil(total / per_page)`; 500 when sqlite3 cannot bind
   * the LIMIT or OFFSET or the page count divides by zero.
   */
  function ListBooks(t: BookTable, page: Option<int>, perPage: Option<int>): (r: Reply<BookTable>)
    ensures r.state == t
    ensures var pg, pp := page.GetOr(1), perPage.GetOr(PageSize);
            && (r.status == 500 <==> pp == 0 || !InInt64(pp) || !InInt64((pg - 1) * pp))
            && (r.status != 500 ==>
                  && r.status == 200
                  && r.body == Page(MapSeq(ToDict, Window(Scan(t), pp, (pg - 1) * pp)), |Scan(t)|, pg, pp,
                                    FloorDiv(|Scan(t)| + pp - 1, pp)))
  {
    match Paginate(Scan(t), page.GetOr(1), perPage.GetOr(PageSize))
    case None => Reply(t, 500, Internal)
    case Some(w) => Reply(t, 200, Page(MapSeq(ToDict, w.items), w.total, w.page, w.perPage, w.totalPages))
  }

  /** The search condition `title LIKE '%q%' OR author LIKE '%q%'`, read as plain substring tests. */
  predicate Hit(b: Book, q: string) {
    Contains(b.title, q) || Contains(b.author, q)
  }

  /** The books of `bs` that match `q`, in their original order. */
  function Filter(bs: seq<Book>, q: string): (r: seq<Book>)
    ensures |r| <= |bs|
    ensures forall i | 0 <= i < |r| :: r[i] in bs && Hit(r[i], q)
    ensures forall i | 0 <= i < |bs| && Hit(bs[i], q) :: bs[i] in r
  {
    if bs == [] then []
    else if Hit(bs[0], q) then [bs[0]] + Filter(bs[1..], q)
    else Filter(bs[1..], q)
  }

  /**
   * Filtering commutes with concatenation: the matches of an earlier part
   * come before those of a later part, so the original order is kept.
   */
  lemma {:induction false} FilterAppend(a: seq<Book>, b: seq<Book>, q: string)
    ensures Filter(a + b, q) == Filter(a, q) + Filter(b, q)
  {
    if a != [] {
      assert (a + b)[1..] == a[1..] + b;
      FilterAppend(a[1..], b, q);
    } else {
      assert a + b == b;
    }
  }

  /** The filtered books are a sub-multiset of the input. */
  lemma {:induction false} FilterSubMultiset(bs: seq<Book>, q: string)
    ensures multiset(Filter(bs, q)) <= multiset(bs)
  {
    if bs != [] {
      var rest := Filter(bs[1..], q);
      FilterSubMultiset(bs[1..], q);
      assert bs == [bs[0]] + bs[1..];
      assert multiset(bs) == multiset{bs[0]} + multiset(bs[1..]);
      if Hit(bs[0], q) {
        assert Filter(bs, q) == [bs[0]] + rest;
        assert multiset(Filter(bs, q)) == multiset{bs[0]} + multiset(rest);
      } else {
        assert Filter(bs, q) == Filter(bs[1..], q);
      }
    }
  }

  /** No book occurs twice in `bs`. */
  predicate NoRepeats(bs: seq<Book>) {
    forall i, j | 0 <= i < j < |bs| :: bs[i] != bs[j]
  }

  /** The tail of a list without repeats has none and does not hold the head. */
  lemma TailNoRepeats(bs: seq<Book>)
    requires bs != [] && NoRepeats(bs)
    ensures bs[0] !in bs[1..] && NoRepeats(bs[1..])
  {
    var tl := bs[1..];
    forall i, j | 0 <= i < j < |tl| ensures tl[i] != tl[j] {
      assert tl[i] == bs[i + 1] && tl[j] == bs[j + 1];
    }
    forall i | 0 <= i < |tl| ensures tl[i] != bs[0] {
      assert tl[i] == bs[i + 1];
    }
  }

  /** Putting a new book in front of a list without repeats keeps it so. */
  lemma ConsNoRepeats(x: Book, s: seq<Book>)
    requires x !in s && NoRepeats(s)
    ensures NoRepeats([x] + s)
  {
    var r := [x] + s;
    forall i, j | 0 <= i < j < |r| ensures r[i] != r[j] {
      if i == 0 {
        assert r[j] == s[j - 1];
      } else {
        assert r[i] == s[i - 1] && r[j] == s[j - 1];
      }
    }
  }

  /** Filtering a list without repeats gives a list without repeats. */
  lemma {:induction false} FilterNoRepeats(bs: seq<Book>, q: string)
    requires NoRepeats(bs)
    ensures NoRepeats(Filter(bs, q))
  {
    if bs != [] {
      var rest := Filter(bs[1..], q);
      TailNoRepeats(bs);
      FilterNoRepeats(bs[1..], q);
      if Hit(bs[0], q) {
        assert bs[0] !in rest;
        ConsNoRepeats(bs[0], rest);
        assert Filter(bs, q) == [bs[0]] + rest;
      } else {
        assert Filter(bs, q) == rest;
      }
    }
  }

  /**
   * The filter keeps books, never duplicates them: its result is a
   * sub-multiset of its input, and an input without repeats gives a result
   * without repeats.
   */
  lemma FilterKeepsOnce(bs: seq<Book>, q: string)
    ensures multiset(Filter(bs, q)) <= multiset(bs)
    ensures NoRepeats(bs) ==> NoRepeats(Filter(bs, q))
  {
    FilterSubMultiset(bs, q);
    if NoRepeats(bs) {
      FilterNoRepeats(bs, q);
    }
  }

  /** `GET /books/search?q=`: an absent query is the empty string. */
  function SearchBooks(t: BookTable, q: string): (r: Reply<BookTable>)
    ensures r.state == t
    ensures q == "" <==> r == Reply(t, 400, Error(SearchQueryRequired))
    ensures q != "" ==> r.status == 200 && r.body.Found?
  {
    if q == "" then Reply(t, 400, Error(SearchQueryRequired))
    else Reply(t, 200, Found(MapSeq(ToDict, Filter(Scan(t), q))))
  }

  /** `GET /books/<id>`; an id sqlite3 cannot bind fails the query. */
  function GetBook(t: BookTable, id: int): (r: Reply<BookTable>)
    ensures r.state == t
    ensures !InInt64(id) <==> r == Reply(t, 500, Internal)
    ensures InInt64(id) && id !in t.rows <==> r == Reply(t, 404, Error(BookNotFound))
    ensures InInt64(id) && id in t.rows ==> r == Reply(t, 200, Record(ToDict(t.rows[id])))
  {
    if !InInt64(id) then Reply(t, 500, Internal)
    else if id in t.rows then Reply(t, 200, Record(ToDict(t.rows[id])))
    else Reply(t, 404, Error(BookNotFound))
  }

  /** sqlite3 can bind the book's quantity, the one integer its INSERT or UPDATE binds. */
  predicate Bound(b: Book) {
    InInt64(b.quantity)
  }

  /**
   * `POST /books`: build, validate, then insert. Binding the quantity and
   * allocating the id come before the unique ISBN is checked. Only a 201
   * changes the table.
   */
  function CreateBook(p: Primitives, t: BookTable, data: Object): (r: Reply<BookTable>)
    ensures var c := Checked(p, data);
            && (c.Err? ==> r == Reply(t, c.error.status, c.error.body))
            && (c.Ok? && !(Bound(c.value) && HasRoom(t)) ==> r == Reply(t, 500, Internal))
            && (c.Ok? && Bound(c.value) && HasRoom(t) && IsbnTaken(t, c.value.isbn, None) ==>
                  r == Reply(t, 400, Error(IsbnExists)))
            && (r.status == 201 <==> c.Ok? && Bound(c.value) && HasRoom(t) && !IsbnTaken(t, c.value.isbn, None))
            && (r.status == 201 ==>
                  var row := c.value.(id := Some(t.nextId));
                  && r.state == Table(t.rows[t.nextId := row], t.nextId + 1)
                  && r.body == Record(ToDict(row)))
    ensures r.status != 201 ==> r.state == t
  {
    match Checked(p, data)
    case Err(no) => Reply(t, no.status, no.body)
    case Ok(b) => AddBook(t, b)
  }

  /** The INSERT of a checked book: bind, allocate the id, then the unique ISBN. */
  function AddBook(t: BookTable, b: Book): (r: Reply<BookTable>)
    ensures !(Bound(b) && HasRoom(t)) ==> r == Reply(t, 500, Internal)
    ensures Bound(b) && HasRoom(t) && IsbnTaken(t, b.isbn, None) ==> r == Reply(t, 400, Error(IsbnExists))
    ensures r.status == 201 <==> Bound(b) && HasRoom(t) && !IsbnTaken(t, b.isbn, None)
    ensures r.status != 201 ==> r.state == t
    ensures r.status == 201 ==>
              && r.state == Table(t.rows[t.nextId := b.(id := Some(t.nextId))], t.nextId + 1)
              && r.body == Record(ToDict(b.(id := Some(t.nextId))))
  {
    if !Bound(b) || !HasRoom(t) then Reply(t, 500, Internal)
    else if IsbnTaken(t, b.isbn, None) then Reply(t, 400, Error(IsbnExists))
    else
      var row := b.(id := Some(t.nextId));
      Reply(Insert(t, row).0, 201, Record(ToDict(row)))
  }

  /** The body update builds its book from: the path id replaces any `id` given. */
  function WithPathId(data: Object, id: int): Object {
    if data == map[] then map[] else data["id" := Int(id)]
  }

  /**
   * `PUT /books/<id>`: the book is built and validated before the row is
   * looked for, so a bad body is 400 even for a missing id. Then the
   * quantity and the id are bound; a missing row is 404. The row's own ISBN
   * does not count as taken.
   */
  function UpdateBook(p: Primitives, t: BookTable, id: int, data: Object): (r: Reply<BookTable>)
    ensures var c := Checked(p, WithPathId(data, id));
            && (c.Err? ==> r == Reply(t, c.error.status, c.error.body))
            && (c.Ok? && !(Bound(c.value) && InInt64(id)) ==> r == Reply(t, 500, Internal))
            && (c.Ok? && Bound(c.value) && InInt64(id) && id !in t.rows ==> r == Reply(t, 404, Error(BookNotFound)))
            && (c.Ok? && Bound(c.value) && InInt64(id) && id in t.rows && IsbnTaken(t, c.value.isbn, Some(id)) ==>
                  r == Reply(t, 400, Error(IsbnExists)))
            && (r.status == 200 <==>
                  c.Ok? && Bound(c.value) && InInt64(id) && id in t.rows && !IsbnTaken(t, c.value.isbn, Some(id)))
            && (r.status == 200 ==>
                  && c.value.id == Some(id)
                  && r.state == Table(t.rows[id := c.value], t.nextId)
                  && r.body == Record(ToDict(c.value)))
    ensures r.status != 200 ==> r.state == t
  {
    match Checked(p, WithPathId(data, id))
    case Err(no) => Reply(t, no.status, no.body)
    case Ok(b) =>
      if !Bound(b) || !InInt64(id) then Reply(t, 500, Internal)
      else if id !in t.rows then Reply(t, 404, Error(BookNotFound))
      else if IsbnTaken(t, b.isbn, Some(id)) then Reply(t, 400, Error(IsbnExists))
      else Reply(Replace(t, id, b), 200, Record(ToDict(b)))
  }

  /** `DELETE /books/<id>`. */
  function DeleteBook(t: BookTable, id: int): (r: Reply<BookTable>)
    ensures !InInt64(id) <==> r == Reply(t, 500, Internal)
    ensures InInt64(id) && id !in t.rows <==> r == Reply(t, 404, Error(BookNotFound))
    ensures InInt64(id) && id in t.rows ==>
              && r.status == 200 && r.body == Message(BookDeleted)
              && r.state.rows == t.rows - {id} && r.state.nextId == t.nextId
    ensures Inv(t) ==> Inv(r.state)
  {
    if !InInt64(id) then Reply(t, 500, Internal)
    else if id !in t.rows then Reply(t, 404, Error(BookNotFound))
    else Reply(Delete(t, id), 200, Message(BookDeleted))
  }

  // ---------------------------------------------------------------------------
  // Properties of the handlers
  // ---------------------------------------------------------------------------

  /** Adding a valid row under the next id, with an ISBN no row holds, keeps the invariant. */
  lemma InsertKeepsInv(t: BookTable, row: Book)
    requires Inv(t) && ValidBook(row) && row.id == Some(t.nextId) && !IsbnTaken(t, row.isbn, None)
    ensures Inv(Insert(t, row).0)
  {
    var t' := Insert(t, row).0;
    forall j, k | j in t'.rows && k in t'.rows && j != k ensures t'.rows[j].isbn != t'.rows[k].isbn {
      if j == t.nextId {
        assert k in t.rows && t'.rows[k] == t.rows[k];
      } else if k == t.nextId {
        assert j in t.rows && t'.rows[j] == t.rows[j];
      }
    }
  }

  /** Rewriting row `id` with a valid book carrying that id, whose ISBN no other row holds, keeps the invariant. */
  lemma ReplaceKeepsInv(t: BookTable, id: int, row: Book)
    requires Inv(t) && id in t.rows && ValidBook(row) && row.id == Some(id) && !IsbnTaken(t, row.isbn, Some(id))
    ensures Inv(Replace(t, id, row))
  {
    var t' := Replace(t, id, row);
    forall j, k | j in t'.rows && k in t'.rows && j != k ensures t'.rows[j].isbn != t'.rows[k].isbn {
      if j == id {
        assert t'.rows[k] == t.rows[k];
      } else if k == id {
        assert t'.rows[j] == t.rows[j];
      }
    }
  }

  lemma CreatePreservesInv(p: Primitives, t: BookTable, data: Object)
    requires Inv(t)
    ensures Inv(CreateBook(p, t, data).state)
  {
    if Checked(p, data).Ok? {
      var b := Checked(p, data).value;
      if Bound(b) && HasRoom(t) && !IsbnTaken(t, b.isbn, None) {
        InsertKeepsInv(t, b.(id := Some(t.nextId)));
      }
    }
  }

  lemma UpdatePreservesInv(p: Primitives, t: BookTable, id: int, data: Object)
    requires Inv(t)
    ensures Inv(UpdateBook(p, t, id, data).state)
  {
    var c := Checked(p, WithPathId(data, id));
    if c.Ok? && Bound(c.value) && InInt64(id) && id in t.rows && !IsbnTaken(t, c.value.isbn, Some(id)) {
      ReplaceKeepsInv(t, id, c.value);
    }
  }

  lemma DeletePreservesInv(t: BookTable, id: int)
    requires Inv(t)
    ensures Inv(DeleteBook(t, id).state)
  {
  }

  /** Under the invariant the reported total is the number of rows, `COUNT(*)`. */
  lemma ListTotalIsRowCount(t: BookTable, page: Option<int>, perPage: Option<int>)
    requires Inv(t)
    ensures var pg, pp := page.GetOr(1), perPage.GetOr(PageSize);
            pp != 0 && InInt64(pp) && InInt64((pg - 1) * pp) ==>
              ListBooks(t, page, perPage).status == 200 && ListBooks(t, page, perPage).body.total == |t.rows|
  {
    ScanCount(t);
  }

  /** Three books listed two per page: two shown, three in total, two pages. */
  lemma ListThreeBooksTwoPerPage(t: BookTable)
    requires Inv(t) && |t.rows| == 3
    ensures var r := ListBooks(t, None, Some(2));
            && r.status == 200 && |r.body.items| == 2
            && r.body.total == 3 && r.body.totalPages == 2 && r.body.page == 1
  {
    ScanCount(t);
    var rows := Scan(t);
    assert Paginate(rows, 1, 2).value.items == rows[0..2];
  }

  /** A book's dictionary is among the dictionaries of `bs` exactly when the book is in `bs`. */
  lemma ToDictIn(bs: seq<Book>, b: Book)
    ensures ToDict(b) in MapSeq(ToDict, bs) <==> b in bs
  {
    var ds := MapSeq(ToDict, bs);
    if b in bs {
      var i :| 0 <= i < |bs| && bs[i] == b;
      assert ds[i] == ToDict(b);
    }
    if ToDict(b) in ds {
      var i :| 0 <= i < |ds| && ds[i] == ToDict(b);
      ToDictInjective(bs[i], b);
    }
  }

  /** Distinct books have distinct dictionaries, so a repeat-free list stays repeat-free. */
  lemma DictsDistinct(bs: seq<Book>)
    requires NoRepeats(bs)
    ensures var ds := MapSeq(ToDict, bs);
            forall i, j | 0 <= i < j < |ds| :: ds[i] != ds[j]
  {
    var ds := MapSeq(ToDict, bs);
    forall i, j | 0 <= i < j < |ds| ensures ds[i] != ds[j] {
      if ds[i] == ds[j] {
        ToDictInjective(bs[i], bs[j]);
      }
    }
  }

  /** Every book a scan returns is a row of the table. */
  lemma ScannedIsRow(t: BookTable, b: Book)
    requires b in Scan(t)
    ensures exists k | k in t.rows :: b == t.rows[k]
  {
    var n :| 0 <= n < |Scan(t)| && Scan(t)[n] == b;
    assert Ids(t)[n] in t.rows;
  }

  /** Under the invariant a scan lists no book twice: each row carries its own id. */
  lemma ScanDistinct(t: BookTable)
    requires Inv(t)
    ensures NoRepeats(Scan(t))
  {
    var ks := Ids(t);
    forall i, j | 0 <= i < j < |Scan(t)| ensures Scan(t)[i] != Scan(t)[j] {
      assert Scan(t)[i].id == Some(ks[i]) && Scan(t)[j].id == Some(ks[j]);
    }
  }

  /** The search result holds a stored book's dictionary exactly when the book hits. */
  lemma SearchHits(t: BookTable, q: string)
    requires IdsIssued(t) && q != ""
    ensures var items := SearchBooks(t, q).body.items;
            forall k | k in t.rows :: ToDict(t.rows[k]) in items <==> Hit(t.rows[k], q)
  {
    var found := Filter(Scan(t), q);
    assert SearchBooks(t, q).body.items == MapSeq(ToDict, found);
    forall k | k in t.rows ensures ToDict(t.rows[k]) in MapSeq(ToDict, found) <==> Hit(t.rows[k], q) {
      ScanHoldsEveryRow(t, k);
      ToDictIn(found, t.rows[k]);
    }
  }

  /** Every entry of a search result is the dictionary of a stored book. */
  lemma SearchFromRows(t: BookTable, q: string)
    requires q != ""
    ensures var items := SearchBooks(t, q).body.items;
            forall i | 0 <= i < |items| :: exists k | k in t.rows :: items[i] == ToDict(t.rows[k])
  {
    var found := Filter(Scan(t), q);
    assert SearchBooks(t, q).body.items == MapSeq(ToDict, found);
    forall i | 0 <= i < |found| ensures exists k | k in t.rows :: ToDict(found[i]) == ToDict(t.rows[k]) {
      ScannedIsRow(t, found[i]);
    }
  }

  /** Under the invariant a search result lists no book twice. */
  lemma SearchOnce(t: BookTable, q: string)
    requires Inv(t) && q != ""
    ensures var items := SearchBooks(t, q).body.items;
            forall i, j | 0 <= i < j < |items| :: items[i] != items[j]
  {
    var found := Filter(Scan(t), q);
    assert SearchBooks(t, q).body.items == MapSeq(ToDict, found);
    ScanDistinct(t);
    FilterKeepsOnce(Scan(t), q);
    DictsDistinct(found);
  }

  /**
   * A search answers exactly the books whose title or author contains the
   * query, each once, and nothing that is not a row.
   */
  lemma SearchIsExact(t: BookTable, q: string)
    requires Inv(t) && q != ""
    ensures var items := SearchBooks(t, q).body.items;
            && (forall k | k in t.rows :: ToDict(t.rows[k]) in items <==> Hit(t.rows[k], q))
            && (forall i | 0 <= i < |items| :: exists k | k in t.rows :: items[i] == ToDict(t.rows[k]))
            && (forall i, j | 0 <= i < j < |items| :: items[i] != items[j])
  {
    SearchHits(t, q);
    SearchFromRows(t, q);
    SearchOnce(t, q);
  }

  /** A two-row table scans in id order. */
  lemma ScanTwoRows(a: Book, b: Book)
    ensures Scan(Table(map[1 := a, 2 := b], 3)) == [a, b]
  {
    var t := Table(map[1 := a, 2 := b], 3);
    assert IdsBetween(t.rows, 3, 3) == [];
    assert IdsBetween(t.rows, 2, 3) == [2];
    assert Ids(t) == [1, 2];
  }

  lemma PythonTitleHits(title: string)
    requires title == "Python Programming"
    ensures Contains(title, "Python")
  {
    assert title[..6] == "Python";
    ContainsPrefix(title, "Python");
  }

  lemma JavaBookMisses(text: string)
    requires text == "Java Programming" || text == "Jane Doe"
    ensures !Contains(text, "Python")
  {
    var q := "Python";
    assert q[1] == 'y';
    assert forall i | 0 <= i < |text| :: text[i] != 'y';
    MissingCharNotContained(text, q, 'y');
  }

  /** The search from the tests: "Python" finds the Python book and not the Java one. */
  lemma SearchPythonFindsOneBook(python: Book, java: Book)
    requires python == Book(Some(1), "Python Programming", "John Smith", "1111111111", 5)
    requires java == Book(Some(2), "Java Programming", "Jane Doe", "2222222222", 3)
    ensures var t := Table(map[1 := python, 2 := java], 3);
            SearchBooks(t, "Python") == Reply(t, 200, Found([ToDict(python)]))
  {
    ScanTwoRows(python, java);
    PythonTitleHits(python.title);
    JavaBookMisses(java.title);
    JavaBookMisses(java.author);
    assert Filter([python, java], "Python") == [python] + Filter([java], "Python");
    assert Filter([java], "Python") == [];
  }

  /** A created book is served back by `GET` under its new id, with the same body. */
  lemma CreateThenGet(p: Primitives, t: BookTable, data: Object)
    requires CreateBook(p, t, data).status == 201
    ensures var r := CreateBook(p, t, data);
            GetBook(r.state, t.nextId) == Reply(r.state, 200, r.body)
  {
  }

  /** Deleting a book right after creating it leaves the rows as before; only the id is used up. */
  lemma CreateThenDelete(p: Primitives, t: BookTable, data: Object)
    requires IdsIssued(t)
    requires CreateBook(p, t, data).status == 201
    ensures var r := DeleteBook(CreateBook(p, t, data).state, t.nextId);
            r.status == 200 && r.state.rows == t.rows && r.state.nextId == t.nextId + 1
  {
    var row := Checked(p, data).value.(id := Some(t.nextId));
    assert CreateBook(p, t, data).state == Insert(t, row).0;
    DeleteUndoesInsert(t, row);
  }

  /** A valid book whose ISBN some row already holds is refused and nothing changes; the insert only gets that far once it can run. */
  lemma CreateDuplicateIsbnRejected(p: Primitives, t: BookTable, data: Object, k: int)
    requires data != map[] && FromDict(p, data).Ok? && Validate(FromDict(p, data).value).None?
    requires k in t.rows && t.rows[k].isbn == FromDict(p, data).value.isbn
    ensures Checked(p, data).Ok?
    ensures CreateBook(p, t, data)
              == if Bound(Checked(p, data).value) && HasRoom(t) then Reply(t, 400, Error(IsbnExists))
                 else Reply(t, 500, Internal)
  {
  }

  /** Rewriting a book with the ISBN of a different row is refused and nothing changes; the update only gets that far once it can run. */
  lemma UpdateDuplicateIsbnRejected(p: Primitives, t: BookTable, id: int, data: Object, k: int)
    requires data != map[] && FromDict(p, data["id" := Int(id)]).Ok?
    requires Validate(FromDict(p, data["id" := Int(id)]).value).None?
    requires id in t.rows && k in t.rows && k != id
    requires t.rows[k].isbn == FromDict(p, data["id" := Int(id)]).value.isbn
    ensures Checked(p, WithPathId(data, id)).Ok?
    ensures UpdateBook(p, t, id, data)
              == if Bound(Checked(p, WithPathId(data, id)).value) && InInt64(id) then Reply(t, 400, Error(IsbnExists))
                 else Reply(t, 500, Internal)
  {
  }
}

=== FILE: email.dfy ===
/**
 * The email check of `Member.validate`:
 * `re.match(r'^[a-zA-Z0-9._%+-]+@[a-zA-Z0-9.-]+\.[a-zA-Z]{2,}$', email)`.
 * `Matches` is the pattern read as a language; `IsValidEmail` is a
 * left-to-right check proved to accept exactly that language.
 */
module EmailPattern {
  import opened Results
  import opened Text

  /** `[a-zA-Z0-9._%+-]` */
  predicate IsLocalChar(c: char) {
    IsAsciiLetter(c) || IsDigit(c) || c == '.' || c == '_' || c == '%' || c == '+' || c == '-'
  }

  /** `[a-zA-Z0-9.-]` */
  predicate IsDomainChar(c: char) {
    IsAsciiLetter(c) || IsDigit(c) || c == '.' || c == '-'
  }

  predicate AllLocal(s: string) { forall i | 0 <= i < |s| :: IsLocalChar(s[i]) }

  predicate AllDomain(s: string) { forall i | 0 <= i < |s| :: IsDomainChar(s[i]) }

  predicate AllLetters(s: string) { forall i | 0 <= i < |s| :: IsAsciiLetter(s[i]) }

  /**
   * `s` is a non-empty local part, '@' at `at`, a non-empty domain part,
   * '.' at `dot`, and at least two letters.
   */
  predicate SplitsAt(s: string, at: int, dot: int) {
    && 0 < at && at + 1 < dot && dot + 2 < |s|
    && s[at] == '@' && s[dot] == '.'
    && AllLocal(s[..at]) && AllDomain(s[at + 1..dot]) && AllLetters(s[dot + 1..])
  }

  /** The pattern between `^` and `$` matches the whole of `s`. */
  ghost predicate Whole(s: string) {
    exists at, dot | 0 <= at < |s| && 0 <= dot < |s| :: SplitsAt(s, at, dot)
  }

  /** `re.match` succeeds: `$` matches at the end or just before a final newline. */
  ghost predicate Matches(s: string) {
    Whole(s) || (|s| > 0 && s[|s| - 1] == '\n' && Whole(s[..|s| - 1]))
  }

  /** The only possible split puts '@' at its first occurrence and '.' at its last. */
  function CheckWhole(s: string): bool {
    match (FirstIndex(s, '@'), LastIndex(s, '.'))
    case (Some(at), Some(dot)) => SplitsAt(s, at, dot)
    case _ => false
  }

  lemma {:induction false} FirstIndexAt(s: string, c: char, k: nat)
    requires k < |s| && s[k] == c
    requires forall i | 0 <= i < k :: s[i] != c
    ensures FirstIndex(s, c) == Some(k)
  {
    if k > 0 {
      FirstIndexAt(s[1..], c, k - 1);
    }
  }

  lemma {:induction false} LastIndexAt(s: string, c: char, k: nat)
    requires k < |s| && s[k] == c
    requires forall i | k < i < |s| :: s[i] != c
    ensures LastIndex(s, c) == Some(k)
    decreases |s|
  {
    if k < |s| - 1 {
      LastIndexAt(s[..|s| - 1], c, k);
    }
  }

  /** In any split the '@' is the first '@' and the '.' is the last '.'. */
  lemma SplitIsUnique(s: string, at: int, dot: int)
    requires SplitsAt(s, at, dot)
    ensures FirstIndex(s, '@') == Some(at)
    ensures LastIndex(s, '.') == Some(dot)
  {
    forall i | 0 <= i < at ensures s[i] != '@' {
      assert IsLocalChar(s[..at][i]);
    }
    FirstIndexAt(s, '@', at);
    forall i | dot < i < |s| ensures s[i] != '.' {
      assert IsAsciiLetter(s[dot + 1..][i - dot - 1]);
    }
    LastIndexAt(s, '.', dot);
  }

  lemma CheckWholeCorrect(s: string)
    ensures CheckWhole(s) <==> Whole(s)
  {
    if Whole(s) {
      var at, dot :| 0 <= at < |s| && 0 <= dot < |s| && SplitsAt(s, at, dot);
      SplitIsUnique(s, at, dot);
    }
    if CheckWhole(s) {
      var at, dot := FirstIndex(s, '@').value, LastIndex(s, '.').value;
      assert SplitsAt(s, at, dot);
    }
  }

  /** A string ending in a newline never matches as a whole: the final letters exclude it. */
  lemma NewlineEndedNotWhole(s: string)
    requires |s| > 0 && s[|s| - 1] == '\n'
    ensures !Whole(s)
  {
    forall at, dot | 0 <= at < |s| && 0 <= dot < |s| ensures !SplitsAt(s, at, dot) {
      if dot + 2 < |s| {
        assert s[dot + 1..][|s| - dot - 2] == '\n';
      }
    }
  }

  /** The email test of `validate`, accepting exactly what `re.match` accepts. */
  function IsValidEmail(s: string): (r: bool)
    ensures r <==> Matches(s)
  {
    if |s| > 0 && s[|s| - 1] == '\n' then
      NewlineEndedNotWhole(s);
      CheckWholeCorrect(s[..|s| - 1]);
      CheckWhole(s[..|s| - 1])
    else
      CheckWholeCorrect(s);
      CheckWhole(s)
  }

  /** What `re.match` compares against the pattern once `$` has absorbed a final newline. */
  function Core(s: string): string {
    if |s| > 0 && s[|s| - 1] == '\n' then s[..|s| - 1] else s
  }

  /** A split address holds exactly one '@'. */
  lemma SplitHasOneAt(c: string, at: int, dot: int)
    requires SplitsAt(c, at, dot)
    ensures Count(c, '@') == 1
  {
    var head, tail := c[..at], c[at + 1..];
    forall i | 0 <= i < |head| ensures head[i] != '@' {
      assert IsLocalChar(head[i]);
    }
    forall i | 0 <= i < |tail| ensures tail[i] != '@' {
      if at + 1 + i < dot {
        assert tail[i] == c[at + 1..dot][i];
        assert IsDomainChar(c[at + 1..dot][i]);
      } else if at + 1 + i > dot {
        assert tail[i] == c[dot + 1..][at + i - dot];
        assert IsAsciiLetter(c[dot + 1..][at + i - dot]);
      }
    }
    assert c == head + ([c[at]] + tail);
    CountAbsent(head, '@');
    CountAbsent(tail, '@');
    CountConcat(head, [c[at]] + tail, '@');
    CountConcat([c[at]], tail, '@');
  }

  /**
   * An accepted address has exactly one '@' preceded by a non-empty run of
   * local-part characters, and its last '.' is followed by at least two
   * ASCII letters and nothing else.
   */
  lemma AcceptedEmailShape(s: string)
    requires IsValidEmail(s)
    ensures var c := Core(s);
            && Count(c, '@') == 1
            && FirstIndex(c, '@').Some? && FirstIndex(c, '@').value > 0
            && AllLocal(c[..FirstIndex(c, '@').value])
            && LastIndex(c, '.').Some? && |c| - LastIndex(c, '.').value - 1 >= 2
            && AllLetters(c[LastIndex(c, '.').value + 1..])
  {
    var c := Core(s);
    if |s| > 0 && s[|s| - 1] == '\n' {
      NewlineEndedNotWhole(s);
    }
    assert Whole(c);
    var at, dot :| 0 <= at < |c| && 0 <= dot < |c| && SplitsAt(c, at, dot);
    SplitIsUnique(c, at, dot);
    SplitHasOneAt(c, at, dot);
  }

  /** The address used by the tests is accepted, also with one trailing newline. */
  lemma TrailingNewlineAccepted()
    ensures IsValidEmail("john@example.com")
    ensures IsValidEmail("john@example.com\n")
  {
    var s := "john@example.com";
    assert s[..4] == "john" && s[5..12] == "example" && s[13..] == "com";
    assert AllLocal("john") && AllDomain("example") && AllLetters("com");
    assert SplitsAt(s, 4, 12);
    assert Whole(s);
    var t := "john@example.com\n";
    assert t[..|t| - 1] == s;
  }
}

=== FILE: externals.dfy ===
/**
 * The primitives the library calls but this model does not reimplement:
 * base64+JSON encoding of the token payload, HMAC-SHA256, SHA-256 of a
 * password, and `int()` of a string. They are passed around as a bundle of
 * functions; `Lawful` lists the only facts the proofs use about them.
 */
module Externals {
  import opened Results
  import opened Text

  /**
   * The JSON object a token carries, `{"user_id": ..., "exp": ...}`.
   * `userId` is None when the decoded object has no "user_id" key.
   */
  datatype Claims = Claims(userId: Option<int>, exp: int)

  datatype Primitives = Primitives(
    encode: Claims -> string,             // base64.b64encode(json.dumps(payload).encode()).decode()
    decode: string -> Option<Claims>,     // json.loads(base64.b64decode(s)), None when that fails or has no integer "exp"
    hexMac: (string, string) -> string,   // hmac.new(key, msg, sha256).hexdigest()
    sha256Hex: string -> string,          // hashlib.sha256(password.encode()).hexdigest()
    parseInt: string -> Option<int>)      // int(s), None when it raises ValueError

  /**
   * Decoding undoes encoding, the empty text decodes to nothing (`b''` is
   * not JSON), encoded payloads are base64 text, and both digests are 64
   * lower-case hex characters. Nothing about unforgeability or collision
   * resistance is assumed.
   */
  ghost predicate Lawful(p: Primitives) {
    && (forall c: Claims :: p.decode(p.encode(c)) == Some(c))
    && p.decode("") == None
    && (forall c: Claims :: IsBase64Text(p.encode(c)))
    && (forall key: string, msg: string :: IsHexDigest(p.hexMac(key, msg)))
    && (forall s: string :: IsHexDigest(p.sha256Hex(s)))
  }
}

=== FILE: gate.dfy ===
/**
 * `require_auth`: reads the `Authorization` header, takes its second
 * space-separated field as the token, verifies it, and only then runs the
 * wrapped handler with the payload's `user_id`.
 */
module AuthGate {
  import opened Results
  import opened Text
  import opened Externals
  import opened Settings
  import opened Http
  import opened Tokens

  const NoAuthorizationHeader := "No authorization header"

  /** `str(IndexError)` raised by `auth_header.split(" ")[1]` on a header without a space. */
  const IndexOutOfRange := "list index out of range"

  /** The gate's decision: run the handler for `userId`, or answer without running it. */
  datatype Admission = Admitted(userId: int) | Denied(status: int, body: Body)

  function Authenticate(p: Primitives, cfg: Config, now: int, header: Option<string>): (a: Admission)
    ensures header.None? || header == Some("") ==> a == Denied(401, Error(NoAuthorizationHeader))
    ensures header.Some? && header.value != "" && ' ' !in header.value ==> a == Denied(401, Error(IndexOutOfRange))
    ensures a.Denied? ==> a.status == 401 || a == Denied(500, Internal)
    ensures a == Denied(500, Internal) <==>
              && header.Some? && header.value != "" && |Split(header.value, ' ')| >= 2
              && VerifyToken(p, cfg, now, Split(header.value, ' ')[1]).Ok?
              && VerifyToken(p, cfg, now, Split(header.value, ' ')[1]).value.userId.None?
  {
    if header.None? || header.value == "" then
      Denied(401, Error(NoAuthorizationHeader))
    else
      var fields := Split(header.value, ' ');
      if |fields| < 2 then
        Denied(401, Error(IndexOutOfRange))
      else
        match VerifyToken(p, cfg, now, fields[1])
        case Err(e) => Denied(401, Error(e))
        case Ok(claims) =>
          // `payload['user_id']` raises KeyError, which the gate does not catch
          if claims.userId.None? then Denied(500, Internal) else Admitted(claims.userId.value)
  }

  /** A protected route: the gate, then `handler` with the authenticated subject. */
  function Protect<S>(p: Primitives, cfg: Config, now: int, header: Option<string>, st: S,
                      handler: (S, int) -> Reply<S>): (r: Reply<S>)
    ensures header.None? ==> r == Reply(st, 401, Error(NoAuthorizationHeader))
    ensures Authenticate(p, cfg, now, header).Denied? ==> r.state == st && r.status != 200
    ensures Authenticate(p, cfg, now, header).Admitted? ==> r == handler(st, Authenticate(p, cfg, now, header).userId)
  {
    match Authenticate(p, cfg, now, header)
    case Denied(status, body) => Reply(st, status, body)
    case Admitted(userId) => handler(st, userId)
  }

  /** A denied request gives the same reply whatever the wrapped handler would have done. */
  lemma DeniedHandlerNotRun<S>(p: Primitives, cfg: Config, now: int, header: Option<string>, st: S,
                               h1: (S, int) -> Reply<S>, h2: (S, int) -> Reply<S>)
    requires Authenticate(p, cfg, now, header).Denied?
    ensures Protect(p, cfg, now, header, st, h1) == Protect(p, cfg, now, header, st, h2)
  {
  }

  /** The scheme word before the first space is never looked at. */
  lemma SchemeNotChecked(p: Primitives, cfg: Config, now: int, scheme1: string, scheme2: string, rest: string)
    requires ' ' !in scheme1 && ' ' !in scheme2
    ensures Authenticate(p, cfg, now, Some(scheme1 + " " + rest))
         == Authenticate(p, cfg, now, Some(scheme2 + " " + rest))
  {
    assert scheme1 + " " + rest == scheme1 + [' '] + rest;
    assert scheme2 + " " + rest == scheme2 + [' '] + rest;
    SplitAround(scheme1, ' ', rest);
    SplitAround(scheme2, ' ', rest);
  }

  /**
   * A header carrying a freshly created token after any scheme word admits
   * the token's subject until the token expires, and is refused afterwards.
   */
  lemma IssuedTokenAdmitted(p: Primitives, cfg: Config, issuedAt: int, userId: int, now: int, scheme: string)
    requires Lawful(p)
    requires ' ' !in scheme
    ensures var header := Some(scheme + " " + CreateToken(p, cfg, issuedAt, userId));
            && (now <= issuedAt + cfg.tokenExpiration ==> Authenticate(p, cfg, now, header) == Admitted(userId))
            && (issuedAt + cfg.tokenExpiration < now ==>
                  Authenticate(p, cfg, now, header) == Denied(401, Error(InvalidTokenFormat)))
  {
    var token := CreateToken(p, cfg, issuedAt, userId);
    TokenShape(p, cfg, issuedAt, userId);
    VerifyCreated(p, cfg, issuedAt, userId, now);
    SplitPair(scheme, ' ', token);
    assert scheme + " " + token == scheme + [' '] + token;
  }

  /**
   * The handler only runs for the subject of a correctly signed, unexpired
   * token found in the second field of the header.
   */
  lemma AdmissionNeedsSignedToken(p: Primitives, cfg: Config, now: int, header: Option<string>)
    requires Authenticate(p, cfg, now, header).Admitted?
    ensures header.Some? && |Split(header.value, ' ')| >= 2
    ensures var token := Split(header.value, ' ')[1];
            exists payload: string ::
              && token == payload + "." + p.hexMac(cfg.secretKey, payload)
              && p.decode(payload) == Some(Claims(Some(Authenticate(p, cfg, now, header).userId),
                                                  VerifyToken(p, cfg, now, token).value.exp))
              && now <= VerifyToken(p, cfg, now, token).value.exp
  {
    var token := Split(header.value, ' ')[1];
    AcceptedTokensAreSigned(p, cfg, now, token);
  }
}

=== FILE: http.dfy ===
/** Handler results: the new state of the store, a status code, and a JSON body. */
module Http {
  import opened Results
  import opened Json

  /** The shapes of JSON body the handlers return. */
  datatype Body =
    | Error(error: string)                  // {"error": ...}
    | Internal                              // {"error": str(e)} of an unexpected exception (status 500)
    | Message(message: string)              // {"message": ...}
    | Record(record: Object)                // one to_dict()
    | Page(items: seq<Object>, total: int, page: int, perPage: int, totalPages: int)
    | Found(items: seq<Object>)             // {"books": [...]} of a search
    | Registered(message: string, token: string, member: Object)
    | LoggedIn(token: string, member: Object)

  datatype Reply<S> = Reply(state: S, status: int, body: Body)

  /** A request refused before the store is touched: its status and body. */
  datatype Refusal = Refusal(status: int, body: Body)

  const NoDataProvided := "No data provided"
}

=== FILE: json.dfy ===
/**
 * Request bodies as the handlers see them after Flask has parsed the JSON:
 * an object from keys to scalar values.
 */
module Json {
  import opened Results

  /** A JSON scalar: a string, an integer, or `null`. */
  datatype Value = Str(s: string) | Int(i: int) | Null

  /** A JSON object, what `request.get_json()` returns for a well-formed body. */
  type Object = map<string, Value>

  /** Why building a record from a body failed. */
  datatype Fault =
    | MissingKey(key: string)  // a KeyError raised by `data[key]`
    | Crash                    // any other exception; the handler answers 500

  /**
   * `data.get('id')` as far as it matters: an integer id, or None when the key
   * is absent, null, or not an integer.
   */
  function IdField(data: Object): (r: Option<int>)
    ensures r.Some? <==> "id" in data && data["id"].Int?
  {
    if "id" in data && data["id"].Int? then Some(data["id"].i) else None
  }

  /**
   * A value stored into a text attribute of a record. `null` and `0` are falsy
   * in Python, so the validators reject them exactly as they reject "";
   * any other number makes `.strip()` or `re.match` raise.
   */
  function TextValue(v: Value): (r: Result<string, Fault>)
    ensures v.Str? ==> r == Ok(v.s)
    ensures r.Ok? && !v.Str? ==> r.value == ""
  {
    match v
    case Str(s) => Ok(s)
    case Null => Ok("")
    case Int(n) => if n == 0 then Ok("") else Err(Crash)
  }
}

=== FILE: member.dfy ===
/** The `Member` record: public view, password digest, and first-failure validator. */
module Members {
  import opened Results
  import opened Text
  import opened Json
  import opened Externals
  import opened EmailPattern

  /** `password` holds the SHA-256 hex digest, never the plaintext. */
  datatype Member = Member(id: Option<int>, name: string, email: string, password: string)

  const NameRequired := "Name is required"
  const EmailRequired := "Valid email is required"
  const PasswordTooShort := "Password must be at least 8 characters long"

  /** `to_dict()`: id, name and email; the digest is never part of it. */
  function ToDict(m: Member): (d: Object)
    ensures d.Keys == {"id", "name", "email"}
    ensures "password" !in d
  {
    map["id" := (if m.id.Some? then Int(m.id.value) else Null),
        "name" := Str(m.name),
        "email" := Str(m.email)]
  }

  /** `hash_password`: SHA-256 of the UTF-8 bytes, as hex. */
  function HashPassword(p: Primitives, password: string): string {
    p.sha256Hex(password)
  }

  /**
   * `Member.from_dict(data)`: `id` optional, then `name`, `email`, `password`
   * looked up in that order; the password is hashed here, before anything
   * validates it, and a non-string password makes `.encode()` raise.
   */
  function FromDict(p: Primitives, data: Object): (r: Result<Member, Fault>)
    ensures "name" !in data ==> r == Err(MissingKey("name"))
    ensures "name" in data && "email" !in data ==> r == Err(MissingKey("email"))
    ensures "name" in data && "email" in data && "password" !in data ==> r == Err(MissingKey("password"))
    ensures r.Ok? ==> && "password" in data && data["password"].Str?
                      && r.value.password == HashPassword(p, data["password"].s)
    ensures r.Ok? ==> r.value.id == IdField(data)
    ensures r.Ok? && data["name"].Str? ==> r.value.name == data["name"].s
    ensures r.Ok? && data["email"].Str? ==> r.value.email == data["email"].s
  {
    if "name" !in data then Err(MissingKey("name"))
    else if "email" !in data then Err(MissingKey("email"))
    else if "password" !in data then Err(MissingKey("password"))
    else if !data["password"].Str? then Err(Crash)
    else
      match (TextValue(data["name"]), TextValue(data["email"]))
      case (Ok(name), Ok(email)) => Ok(Member(IdField(data), name, email, HashPassword(p, data["password"].s)))
      case _ => Err(Crash)
  }

  /** `check_password(password)`: the stored digest equals the digest of the candidate. */
  function CheckPassword(p: Primitives, m: Member, password: string): bool {
    m.password == HashPassword(p, password)
  }

  /**
   * `validate()`: the first failing check in the order name, email, password.
   * The length rule applies to whatever `password` holds, and only while
   * `id` is None.
   */
  function Validate(m: Member): (r: Option<string>)
    ensures r == Some(NameRequired) <==> Blank(m.name)
    ensures r == Some(EmailRequired) <==> !Blank(m.name) && !IsValidEmail(m.email)
    ensures r == Some(PasswordTooShort) <==>
              !Blank(m.name) && IsValidEmail(m.email) && m.id.None? && |m.password| < 8
    ensures r.None? <==> !Blank(m.name) && IsValidEmail(m.email) && (m.id.None? ==> |m.password| >= 8)
  {
    if m.name == "" || |Strip(m.name)| == 0 then Some(NameRequired)
    else if m.email == "" || !IsValidEmail(m.email) then Some(EmailRequired)
    else if m.id.None? && (m.password == "" || |m.password| < 8) then Some(PasswordTooShort)
    else None
  }

  /**
   * A member built from a body accepts the body's own password, and accepts
   * a candidate exactly when the candidate's digest equals that digest.
   */
  lemma FromDictPasswordChecks(p: Primitives, data: Object, password: string, candidate: string)
    requires FromDict(p, data).Ok?
    requires data["password"] == Str(password)
    ensures CheckPassword(p, FromDict(p, data).value, password)
    ensures CheckPassword(p, FromDict(p, data).value, candidate)
            <==> HashPassword(p, candidate) == HashPassword(p, password)
  {
  }

  /**
   * The password rule is dead for members built by `from_dict`: it sees the
   * 64-character digest, so such a member never fails with the password
   * message, whatever the plaintext was.
   */
  lemma PasswordRuleDeadAfterFromDict(p: Primitives, data: Object)
    requires Lawful(p)
    requires FromDict(p, data).Ok?
    ensures Validate(FromDict(p, data).value) != Some(PasswordTooShort)
  {
    var m := FromDict(p, data).value;
    assert IsHexDigest(p.sha256Hex(data["password"].s));
  }

  /** With an id set, the password is not looked at by `validate`. */
  lemma PasswordRuleSkippedWithId(m: Member, other: string)
    requires m.id.Some?
    ensures Validate(m) != Some(PasswordTooShort)
    ensures Validate(m) == Validate(m.(password := other))
  {
  }

  /** The public view does not depend on the stored digest. */
  lemma ToDictHidesPassword(m: Member, other: string)
    ensures ToDict(m) == ToDict(m.(password := other))
  {
  }

  /** A body with a valid name and email but an empty password passes validation. */
  lemma EmptyPasswordAccepted(p: Primitives, name: string, email: string)
    requires Lawful(p)
    requires !Blank(name) && IsValidEmail(email)
    ensures var data := map["name" := Str(name), "email" := Str(email), "password" := Str("")];
            FromDict(p, data) == Ok(Member(None, name, email, HashPassword(p, "")))
            && Validate(FromDict(p, data).value).None?
  {
    var data := map["name" := Str(name), "email" := Str(email), "password" := Str("")];
    assert data["name"] == Str(name) && data["email"] == Str(email) && data["password"] == Str("");
    assert IdField(data) == None;
    var m := Member(None, name, email, HashPassword(p, ""));
    assert FromDict(p, data) == Ok(m);
    assert IsHexDigest(p.sha256Hex(""));
    assert Validate(m).None?;
  }
}

=== FILE: member_routes.dfy ===
/**
 * The `/members` handlers over the `members` table. Members are only
 * created by registration; these handlers read, rename, re-password and
 * delete them.
 */
module MemberRoutes {
  import opened Results
  import opened Text
  import opened Json
  import opened Externals
  import opened Settings
  import opened Http
  import opened Paging
  import opened Sql
  import opened Tables
  import opened EmailPattern
  import opened Members

  type MemberTable = Table<Member>

  const MemberNotFound := "Member not found"
  const EmailNotUpdatable := "Email cannot be updated"
  const NoValidFields := "No valid fields to update"
  const MemberDeleted := "Member deleted successfully"

  /**
   * What the table guarantees: ids issued by the table and stored in the
   * row, `email UNIQUE`, and every email one that registration accepted.
   */
  predicate Inv(t: MemberTable) {
    && IdsIssued(t)
    && (forall k | k in t.rows :: t.rows[k].id == Some(k) && IsValidEmail(t.rows[k].email))
    && (forall j, k | j in t.rows && k in t.rows && j != k :: t.rows[j].email != t.rows[k].email)
  }

  /**
   * `GET /members?page=&per_page=`: the same paging as the books listing,
   * over id, name and email.
   */
  function ListMembers(t: MemberTable, page: Option<int>, perPage: Option<int>): (r: Reply<MemberTable>)
    ensures r.state == t
    ensures var pg, pp := page.GetOr(1), perPage.GetOr(PageSize);
            && (r.status == 500 <==> pp == 0 || !InInt64(pp) || !InInt64((pg - 1) * pp))
            && (r.status != 500 ==>
                  && r.status == 200
                  && r.body == Page(MapSeq(ToDict, Window(Scan(t), pp, (pg - 1) * pp)), |Scan(t)|, pg, pp,
                                    FloorDiv(|Scan(t)| + pp - 1, pp)))
    ensures r.status == 200 ==> forall i | 0 <= i < |r.body.items| :: "password" !in r.body.items[i]
  {
    match Paginate(Scan(t), page.GetOr(1), perPage.GetOr(PageSize))
    case None => Reply(t, 500, Internal)
    case Some(w) => Reply(t, 200, Page(MapSeq(ToDict, w.items), w.total, w.page, w.perPage, w.totalPages))
  }

  /** `GET /members/<id>`: id, name and email only. */
  function GetMember(t: MemberTable, id: int): (r: Reply<MemberTable>)
    ensures r.state == t
    ensures !InInt64(id) <==> r == Reply(t, 500, Internal)
    ensures InInt64(id) && id !in t.rows <==> r == Reply(t, 404, Error(MemberNotFound))
    ensures InInt64(id) && id in t.rows ==> r.status == 200 && r.body == Record(ToDict(t.rows[id]))
    ensures r.body.Record? ==> "password" !in r.body.record
  {
    if !InInt64(id) then Reply(t, 500, Internal)
    else if id in t.rows then Reply(t, 200, Record(ToDict(t.rows[id])))
    else Reply(t, 404, Error(MemberNotFound))
  }

  /**
   * The row after `UPDATE members SET ...`: `name` and `password` when the
   * body has them, the password stored as its digest; nothing else moves.
   */
  function Updated(p: Primitives, m: Member, data: Object): (m': Member)
    requires "password" in data ==> data["password"].Str?
    requires "name" in data ==> BoundText(data["name"]).Some?
    ensures m'.id == m.id && m'.email == m.email
    ensures m'.name == if "name" in data then BoundText(data["name"]).value else m.name
    ensures m'.password == if "password" in data then HashPassword(p, data["password"].s) else m.password
  {
    var named := if "name" in data then m.(name := BoundText(data["name"]).value) else m;
    if "password" in data then named.(password := HashPassword(p, data["password"].s)) else named
  }

  /**
   * `PUT /members/<id>`: an `email` key refuses the request whatever its
   * value; only `name` and `password` are applied and nothing validates
   * them. A non-string password fails while hashing and an id or integer
   * name sqlite3 cannot bind fails the UPDATE, both before the row is looked
   * for; a `null` name fails at the write (`name NOT NULL`).
   */
  function UpdateMember(p: Primitives, t: MemberTable, id: int, data: Object): (r: Reply<MemberTable>)
    ensures data == map[] ==> r == Reply(t, 400, Error(NoDataProvided))
    ensures data != map[] && "email" in data ==> r == Reply(t, 400, Error(EmailNotUpdatable))
    ensures data != map[] && "email" !in data && "name" !in data && "password" !in data ==>
              r == Reply(t, 400, Error(NoValidFields))
    ensures r.status != 200 ==> r.state == t
    ensures r.status == 200 <==>
              && data != map[] && "email" !in data && ("name" in data || "password" in data)
              && ("password" in data ==> data["password"].Str?)
              && InInt64(id) && ("name" in data ==> Bindable(data["name"]))
              && id in t.rows
              && ("name" in data ==> BoundText(data["name"]).Some?)
    ensures "email" !in data && "password" in data && !data["password"].Str? ==> r == Reply(t, 500, Internal)
    ensures "email" !in data && ("password" in data ==> data["password"].Str?)
            && "name" in data && BoundText(data["name"]).None? && InInt64(id) && id in t.rows ==>
              r == Reply(t, 500, Internal)
    ensures "email" !in data && ("name" in data || "password" in data)
            && ("password" in data ==> data["password"].Str?)
            && !(InInt64(id) && ("name" in data ==> Bindable(data["name"]))) ==>
              r == Reply(t, 500, Internal)
    ensures "email" !in data && ("name" in data || "password" in data)
            && ("password" in data ==> data["password"].Str?)
            && InInt64(id) && ("name" in data ==> Bindable(data["name"])) && id !in t.rows ==>
              r == Reply(t, 404, Error(MemberNotFound))
    ensures r.status == 200 ==>
              && r.state.nextId == t.nextId && r.state.rows.Keys == t.rows.Keys
              && r.state.rows[id] == Updated(p, t.rows[id], data)
              && (forall k | k in t.rows && k != id :: r.state.rows[k] == t.rows[k])
              && r.body == Record(ToDict(r.state.rows[id]))
  {
    if data == map[] then Reply(t, 400, Error(NoDataProvided))
    else if "email" in data then Reply(t, 400, Error(EmailNotUpdatable))
    else if "name" !in data && "password" !in data then Reply(t, 400, Error(NoValidFields))
    else if "password" in data && !data["password"].Str? then Reply(t, 500, Internal)
    else if !InInt64(id) || ("name" in data && !Bindable(data["name"])) then Reply(t, 500, Internal)
    else if id !in t.rows then Reply(t, 404, Error(MemberNotFound))
    else if "name" in data && BoundText(data["name"]).None? then Reply(t, 500, Internal)
    else
      var m := Updated(p, t.rows[id], data);
      Reply(Replace(t, id, m), 200, Record(ToDict(m)))
  }

  /** `DELETE /members/<id>`. */
  function DeleteMember(t: MemberTable, id: int): (r: Reply<MemberTable>)
    ensures !InInt64(id) <==> r == Reply(t, 500, Internal)
    ensures InInt64(id) && id !in t.rows <==> r == Reply(t, 404, Error(MemberNotFound))
    ensures InInt64(id) && id in t.rows ==>
              && r.status == 200 && r.body == Message(MemberDeleted)
              && r.state.rows == t.rows - {id} && r.state.nextId == t.nextId
    ensures Inv(t) ==> Inv(r.state)
  {
    if !InInt64(id) then Reply(t, 500, Internal)
    else if id !in t.rows then Reply(t, 404, Error(MemberNotFound))
    else Reply(Delete(t, id), 200, Message(MemberDeleted))
  }

  // ---------------------------------------------------------------------------
  // Properties of the handlers
  // ---------------------------------------------------------------------------

  /** No update changes any member's email, and the invariant survives. */
  lemma UpdateKeepsEmails(p: Primitives, t: MemberTable, id: int, data: Object)
    requires Inv(t)
    ensures var t' := UpdateMember(p, t, id, data).state;
            && t'.rows.Keys == t.rows.Keys
            && (forall k | k in t.rows :: t'.rows[k].email == t.rows[k].email)
            && Inv(t')
  {
  }

  /** The updated password is stored as its digest, and the reply does not carry it. */
  lemma UpdateStoresDigest(p: Primitives, t: MemberTable, id: int, data: Object, password: string)
    requires UpdateMember(p, t, id, data).status == 200
    requires "password" in data && data["password"] == Str(password)
    ensures var r := UpdateMember(p, t, id, data);
            && r.state.rows[id].password == HashPassword(p, password)
            && CheckPassword(p, r.state.rows[id], password)
            && "password" !in r.body.record
  {
  }

  /** A name is not validated on update: an empty one is stored as given. */
  lemma UpdateAcceptsEmptyName(p: Primitives, t: MemberTable, id: int)
    requires id in t.rows && InInt64(id)
    ensures var r := UpdateMember(p, t, id, map["name" := Str("")]);
            r.status == 200 && r.state.rows[id].name == "" && Validate(r.state.rows[id]) == Some(NameRequired)
  {
  }

  /** An integer name goes into the TEXT column as its decimal digits. */
  lemma UpdateStoresIntegerNameAsText(p: Primitives, t: MemberTable, id: int, n: int)
    requires id in t.rows && InInt64(id) && InInt64(n)
    ensures var r := UpdateMember(p, t, id, map["name" := Int(n)]);
            && r.status == 200 && r.state.rows[id].name == DecimalText(n)
            && r.state.rows[id].password == t.rows[id].password
  {
  }

  /** Keys other than `name`, `password` and `email` are ignored by an update. */
  lemma UpdateIgnoresOtherKeys(p: Primitives, t: MemberTable, id: int, data: Object, key: string, v: Value)
    requires key != "name" && key != "password" && key != "email"
    ensures UpdateMember(p, t, id, data[key := v]) ==
              if "name" in data || "password" in data || "email" in data then UpdateMember(p, t, id, data)
              else Reply(t, 400, Error(NoValidFields))
  {
    var d := data[key := v];
    assert key in d;
    assert ("name" in d <==> "name" in data) && ("password" in d <==> "password" in data);
    assert "email" in d <==> "email" in data;
    if "name" in data {
      assert d["name"] == data["name"];
    }
    if "password" in data {
      assert d["password"] == data["password"];
    }
    if id in t.rows && ("password" in data ==> data["password"].Str?)
       && ("name" in data ==> BoundText(data["name"]).Some? && Bindable(data["name"])) {
      assert Updated(p, t.rows[id], d) == Updated(p, t.rows[id], data);
    }
  }
}

=== FILE: paging.dfy ===
/**
 * The list endpoints' paging: `COUNT(*)`, then `LIMIT per_page OFFSET
 * (page - 1) * per_page` over the rows in table order, and
 * `total_pages = (total + per_page - 1) // per_page`.
 */
module Paging {
  import opened Results
  import opened Sql

  /** Python's `a // b`: the quotient rounded towards minus infinity. */
  function FloorDiv(a: int, b: int): (q: int)
    requires b != 0
    ensures b > 0 ==> q * b <= a < q * b + b
    ensures b < 0 ==> q * b + b < a <= q * b
  {
    if b > 0 || a % b == 0 then a / b else a / b - 1
  }

  /**
   * `LIMIT limit OFFSET offset` in SQLite: a negative offset counts as zero
   * and a negative limit means no limit.
   */
  function Window<T>(rows: seq<T>, limit: int, offset: int): (w: seq<T>)
    ensures limit >= 0 ==> |w| <= limit
    ensures var start := if offset < 0 then 0 else offset;
            && (start >= |rows| ==> w == [])
            && (start < |rows| ==> start + |w| <= |rows| && w == rows[start..start + |w|])
            && (start < |rows| && limit < 0 ==> start + |w| == |rows|)
            && (start < |rows| && limit >= 0 ==> start + |w| == if start + limit < |rows| then start + limit else |rows|)
  {
    var start := if offset < 0 then 0 else offset;
    if start >= |rows| then []
    else if limit < 0 || start + limit >= |rows| then rows[start..]
    else rows[start..start + limit]
  }

  /** One page of a listing: the rows and the four numbers echoed beside them. */
  datatype PageOf<T> = PageOf(items: seq<T>, total: int, page: int, perPage: int, totalPages: int)

  /**
   * The listing for `page` and `perPage`; None where the handler answers
   * 500: sqlite3 cannot bind the LIMIT or the OFFSET as a 64-bit integer,
   * or the page count divides by zero.
   */
  function Paginate<T>(rows: seq<T>, page: int, perPage: int): (r: Option<PageOf<T>>)
    ensures r.None? <==> perPage == 0 || !InInt64(perPage) || !InInt64((page - 1) * perPage)
    ensures r.Some? ==> r.value.total == |rows| && r.value.page == page && r.value.perPage == perPage
    ensures r.Some? ==> r.value.items == Window(rows, perPage, (page - 1) * perPage)
    ensures r.Some? && perPage > 0 ==>
              && |r.value.items| <= perPage
              && (r.value.totalPages - 1) * perPage < |rows| <= r.value.totalPages * perPage
  {
    if perPage == 0 || !InInt64(perPage) || !InInt64((page - 1) * perPage) then None
    else
      var total := |rows|;
      Some(PageOf(Window(rows, perPage, (page - 1) * perPage), total, page, perPage,
                  FloorDiv(total + perPage - 1, perPage)))
  }

  /** A page from 1 to `totalPages` is the slice of rows starting at its offset. */
  lemma PageIsSlice<T>(rows: seq<T>, page: int, perPage: int)
    requires 0 < perPage <= Int64Max && page >= 1
    requires (page - 1) * perPage < |rows| && InInt64((page - 1) * perPage)
    ensures var offset, items := (page - 1) * perPage, Paginate(rows, page, perPage).value.items;
            && items == rows[offset..offset + |items|]
            && (offset + perPage <= |rows| ==> |items| == perPage)
            && (offset + perPage > |rows| ==> offset + |items| == |rows|)
  {
  }

  /** Row `i` is shown on page `i / perPage + 1`, at position `i % perPage`. */
  lemma {:induction false} PagesCover<T>(rows: seq<T>, perPage: int, i: int)
    requires 0 < perPage <= Int64Max && 0 <= i < |rows| && i <= Int64Max
    ensures var items := Paginate(rows, i / perPage + 1, perPage).value.items;
            i % perPage < |items| && items[i % perPage] == rows[i]
  {
    var page := i / perPage + 1;
    assert (page - 1) * perPage == i - i % perPage;
    PageIsSlice(rows, page, perPage);
  }

  /** Every page after the last one is empty. */
  lemma PagesPastTheEndAreEmpty<T>(rows: seq<T>, page: int, perPage: int)
    requires 0 < perPage <= Int64Max && InInt64((page - 1) * perPage)
    requires page > Paginate(rows, 1, perPage).value.totalPages
    ensures Paginate(rows, page, perPage).value.items == []
  {
    var tp := Paginate(rows, 1, perPage).value.totalPages;
    assert tp * perPage >= |rows|;
    assert (page - 1) * perPage >= tp * perPage;
  }

  /** Three rows, two per page: two on the first page, one on the second, two pages in all. */
  lemma ThreeRowsTwoPerPage<T>(a: T, b: T, c: T)
    ensures Paginate([a, b, c], 1, 2) == Some(PageOf([a, b], 3, 1, 2, 2))
    ensures Paginate([a, b, c], 2, 2) == Some(PageOf([c], 3, 2, 2, 2))
  {
    assert [a, b, c][0..2] == [a, b];
    assert [a, b, c][2..] == [c];
  }
}

=== FILE: results.dfy ===
/** Option and Result carriers shared by the rest of the model, plus a sequence map. */
module Results {

  /** A value that may be absent: Python's `None` or a missing query parameter. */
  datatype Option<+T> = None | Some(value: T) {

    /** The carried value, or `default` when absent (`dict.get(key, default)`). */
    function GetOr(default: T): T {
      match this
      case Some(v) => v
      case None => default
    }
  }

  /** The outcome of a step that may raise. */
  datatype Result<+T, +E> = Ok(value: T) | Err(error: E)

  /** Applies `f` to every element, keeping the order (a list comprehension). */
  function MapSeq<A, B>(f: A -> B, xs: seq<A>): (ys: seq<B>)
    ensures |ys| == |xs|
    ensures forall i | 0 <= i < |xs| :: ys[i] == f(xs[i])
  {
    seq(|xs|, i requires 0 <= i < |xs| => f(xs[i]))
  }
}

=== FILE: settings.dfy ===
/** The configuration values the core reads. */
module Settings {
  /** The application config entries used by the token codec. */
  datatype Config = Config(secretKey: string, tokenExpiration: int)

  /** Rows per page when `per_page` is absent; routes read it from the class, so it is fixed. */
  const PageSize := 10
}

=== FILE: sql.dfy ===
/**
 * How sqlite3 binds the Python values the handlers pass as statement
 * parameters. Integers must fit SQLite's signed 64-bit INTEGER, or binding
 * raises OverflowError before the statement runs.
 */
module Sql {
  import opened Results
  import opened Text
  import opened Json

  const Int64Min := -0x8000_0000_0000_0000
  const Int64Max := 0x7FFF_FFFF_FFFF_FFFF

  /** A Python int that sqlite3 can bind as an INTEGER. */
  predicate InInt64(i: int) {
    Int64Min <= i <= Int64Max
  }

  /** A JSON scalar sqlite3 can bind: strings and null always, integers within 64 bits. */
  predicate Bindable(v: Value) {
    v.Int? ==> InInt64(v.i)
  }

  /**
   * The text a bound scalar stands for in a TEXT column: a string as it is,
   * an integer as its decimal digits (TEXT affinity converts it on the way in
   * and in comparisons); `null` is no text and equals nothing.
   */
  function BoundText(v: Value): (r: Option<string>)
    ensures r.None? <==> v.Null?
    ensures v.Str? ==> r == Some(v.s)
    ensures v.Int? ==> r == Some(DecimalText(v.i))
  {
    match v
    case Str(s) => Some(s)
    case Int(i) => Some(DecimalText(i))
    case Null => None
  }
}

=== FILE: tables.dfy ===
/**
 * A SQLite table declared `id INTEGER PRIMARY KEY AUTOINCREMENT`, as a map
 * from id to row and the id the next insert receives. Ids are never
 * reused, and scans visit rows in ascending id order.
 */
module Tables {
  import opened Sql

  datatype Table<R> = Table(rows: map<int, R>, nextId: int)

  /** A fresh table: no rows, the first insert gets id 1. */
  function Empty<R>(): (t: Table<R>)
    ensures t.rows == map[] && t.nextId == 1
  {
    Table(map[], 1)
  }

  /** Every stored id is positive and below the next id to hand out. */
  predicate IdsIssued<R>(t: Table<R>) {
    t.nextId >= 1 && forall k | k in t.rows :: 0 < k < t.nextId
  }

  /** The ids of `rows` in `[lo, hi)`, in increasing order. */
  function IdsBetween<R>(rows: map<int, R>, lo: int, hi: int): (ks: seq<int>)
    ensures forall i | 0 <= i < |ks| :: ks[i] in rows && lo <= ks[i] < hi
    ensures forall k | k in rows && lo <= k < hi :: k in ks
    ensures forall i, j | 0 <= i < j < |ks| :: ks[i] < ks[j]
    decreases hi - lo
  {
    if lo >= hi then []
    else if lo in rows then [lo] + IdsBetween(rows, lo + 1, hi)
    else IdsBetween(rows, lo + 1, hi)
  }

  /** The ids of `t` in scan order: every id the table has issued that is still present. */
  function Ids<R>(t: Table<R>): (ks: seq<int>)
    ensures forall i | 0 <= i < |ks| :: ks[i] in t.rows
    ensures IdsIssued(t) ==> forall k | k in t.rows :: k in ks
    ensures forall i, j | 0 <= i < j < |ks| :: ks[i] < ks[j]
  {
    IdsBetween(t.rows, 1, t.nextId)
  }

  /** `SELECT * FROM t` without ORDER BY: the rows in ascending id order. */
  function Scan<R>(t: Table<R>): (rs: seq<R>)
    ensures |rs| == |Ids(t)|
    ensures forall i | 0 <= i < |rs| :: rs[i] == t.rows[Ids(t)[i]]
  {
    var ks := Ids(t);
    seq(|ks|, i requires 0 <= i < |ks| => t.rows[ks[i]])
  }

  /** Every row of a table whose ids were all issued by it appears in its scan. */
  lemma ScanHoldsEveryRow<R>(t: Table<R>, k: int)
    requires IdsIssued(t) && k in t.rows
    ensures t.rows[k] in Scan(t)
  {
    var ks := Ids(t);
    var i :| 0 <= i < |ks| && ks[i] == k;
    assert Scan(t)[i] == t.rows[k];
  }

  /** A strictly increasing sequence has as many distinct elements as entries. */
  lemma {:induction false} IncreasingCard(ks: seq<int>)
    requires forall i, j | 0 <= i < j < |ks| :: ks[i] < ks[j]
    ensures |set k | k in ks| == |ks|
  {
    if ks != [] {
      IncreasingCard(ks[1..]);
      assert (set k | k in ks) == {ks[0]} + (set k | k in ks[1..]);
      assert ks[0] !in (set k | k in ks[1..]);
    }
  }

  /** The scanned ids are exactly the stored keys. */
  lemma IdsAreKeys<R>(t: Table<R>)
    requires IdsIssued(t)
    ensures (set k | k in Ids(t)) == t.rows.Keys
  {
  }

  /** `COUNT(*)` and the scan agree: the scan visits each row exactly once. */
  lemma ScanCount<R>(t: Table<R>)
    requires IdsIssued(t)
    ensures |Scan(t)| == |t.rows|
  {
    IncreasingCard(Ids(t));
    IdsAreKeys(t);
  }

  /**
   * The table can take another row: AUTOINCREMENT refuses an insert
   * (SQLITE_FULL) once the largest 64-bit id has been handed out.
   */
  predicate HasRoom<R>(t: Table<R>) {
    InInt64(t.nextId)
  }

  /** An INSERT: the row gets the next id, which is then used up. */
  function Insert<R>(t: Table<R>, row: R): (r: (Table<R>, int))
    ensures r.1 == t.nextId && r.0.nextId == t.nextId + 1
    ensures r.0.rows == t.rows[t.nextId := row]
    ensures IdsIssued(t) ==> r.1 !in t.rows && IdsIssued(r.0)
  {
    (Table(t.rows[t.nextId := row], t.nextId + 1), t.nextId)
  }

  /** `UPDATE ... WHERE id = ?` on a present id: that row replaced, the counter kept. */
  function Replace<R>(t: Table<R>, id: int, row: R): (r: Table<R>)
    requires id in t.rows
    ensures r.rows.Keys == t.rows.Keys && r.rows[id] == row && r.nextId == t.nextId
    ensures forall k | k in t.rows && k != id :: r.rows[k] == t.rows[k]
  {
    Table(t.rows[id := row], t.nextId)
  }

  /** `DELETE ... WHERE id = ?`: that row gone, the counter kept so the id is never reissued. */
  function Delete<R>(t: Table<R>, id: int): (r: Table<R>)
    ensures r.rows.Keys == t.rows.Keys - {id} && r.nextId == t.nextId
    ensures forall k | k in r.rows :: r.rows[k] == t.rows[k]
    ensures IdsIssued(t) ==> IdsIssued(r)
  {
    Table(t.rows - {id}, t.nextId)
  }

  /** Deleting the row an insert just added gives back the rows from before the insert. */
  lemma DeleteUndoesInsert<R>(t: Table<R>, row: R)
    requires IdsIssued(t)
    ensures Delete(Insert(t, row).0, t.nextId) == Table(t.rows, t.nextId + 1)
  {
    assert t.nextId !in t.rows;
    assert t.rows[t.nextId := row] - {t.nextId} == t.rows;
  }

  /** An id that was deleted is not handed out again by a later insert. */
  lemma DeletedIdNotReissued<R>(t: Table<R>, id: int, row: R)
    requires IdsIssued(t) && id in t.rows
    ensures Insert(Delete(t, id), row).1 != id
  {
  }
}

=== FILE: text.dfy ===
/**
 * The string operations of Python's `str` that the handlers rely on:
 * `strip()`, `split(sep)`, substring search, and the character classes
 * used by the email pattern and by the token's wire format.
 */
module Text {
  import opened Results

  // ---------------------------------------------------------------------------
  // Whitespace and str.strip()
  // ---------------------------------------------------------------------------

  /** The characters for which Python's `str.isspace()` holds; `str.strip()` removes exactly these. */
  predicate IsSpace(c: char) {
    || c == ' '
    || ('\t' <= c <= '\r')
    || ('\U{1C}' <= c <= '\U{1F}')
    || c == '\U{85}' || c == '\U{A0}' || c == '\U{1680}'
    || ('\U{2000}' <= c <= '\U{200A}')
    || c == '\U{2028}' || c == '\U{2029}' || c == '\U{202F}' || c == '\U{205F}' || c == '\U{3000}'
  }

  /** Every character is whitespace; in particular the empty string is blank. */
  predicate Blank(s: string) {
    forall i | 0 <= i < |s| :: IsSpace(s[i])
  }

  /** `s.lstrip()`: drops the leading whitespace and nothing else. */
  function TrimStart(s: string): (r: string)
    ensures |r| <= |s| && r == s[|s| - |r|..]
    ensures Blank(s[..|s| - |r|])
    ensures |r| > 0 ==> !IsSpace(r[0])
    ensures |r| == 0 <==> Blank(s)
  {
    if |s| == 0 || !IsSpace(s[0]) then s
    else
      var r := TrimStart(s[1..]);
      BlankStep(s, |s| - |r|);
      r
  }

  /**
   * Dropping one leading whitespace character: the text's prefix of length
   * `n` is blank exactly when the tail's prefix of length `n - 1` is, and
   * likewise for the whole text.
   */
  lemma BlankStep(s: string, n: int)
    requires 0 < n <= |s| && IsSpace(s[0])
    ensures Blank(s[..n]) <==> Blank(s[1..][..n - 1])
    ensures s[n..] == s[1..][n - 1..]
    ensures Blank(s) <==> Blank(s[1..])
  {
    assert s[..n] == [s[0]] + s[1..][..n - 1];
    assert s == [s[0]] + s[1..];
  }

  /** `s.rstrip()`: drops the trailing whitespace and nothing else. */
  function TrimEnd(s: string): (r: string)
    ensures |r| <= |s| && r == s[..|r|]
    ensures Blank(s[|r|..])
    ensures |r| > 0 ==> !IsSpace(r[|r| - 1])
    ensures |r| == 0 <==> Blank(s)
  {
    if |s| == 0 || !IsSpace(s[|s| - 1]) then s
    else
      var init := s[..|s| - 1];
      var r := TrimEnd(init);
      assert s[|r|..] == init[|r|..] + [s[|s| - 1]];
      r
  }

  /** `s.strip()`: empty exactly when `s` is blank, and otherwise framed by non-space characters. */
  function Strip(s: string): (r: string)
    ensures |r| == 0 <==> Blank(s)
    ensures |r| > 0 ==> !IsSpace(r[0]) && !IsSpace(r[|r| - 1])
  {
    TrimEnd(TrimStart(s))
  }

  // ---------------------------------------------------------------------------
  // str.split(sep) for a one-character separator
  // ---------------------------------------------------------------------------

  /** Number of occurrences of `c` in `s`. */
  function Count(s: string, c: char): nat {
    if |s| == 0 then 0 else (if s[0] == c then 1 else 0) + Count(s[1..], c)
  }

  /** `sep.join(parts)`. */
  function Join(parts: seq<string>, sep: char): string {
    if |parts| == 0 then ""
    else if |parts| == 1 then parts[0]
    else parts[0] + [sep] + Join(parts[1..], sep)
  }

  /**
   * Python's `s.split(sep)` with an explicit one-character separator: one more
   * part than there are separators, empty parts kept, and joining the parts
   * back with `sep` gives `s`.
   */
  function Split(s: string, sep: char): (parts: seq<string>)
    ensures |parts| == Count(s, sep) + 1
    ensures forall i | 0 <= i < |parts| :: sep !in parts[i]
    ensures Join(parts, sep) == s
  {
    if |s| == 0 then [""]
    else
      var rest := Split(s[1..], sep);
      if s[0] == sep then
        [""] + rest
      else
        assert [s[0]] + s[1..] == s;
        [[s[0]] + rest[0]] + rest[1..]
  }

  lemma {:induction false} CountAbsent(s: string, c: char)
    requires c !in s
    ensures Count(s, c) == 0
  {
    if |s| > 0 {
      assert s[0] in s;
      assert forall x :: x in s[1..] ==> x in s;
      CountAbsent(s[1..], c);
    }
  }

  lemma {:induction false} CountConcat(a: string, b: string, c: char)
    ensures Count(a + b, c) == Count(a, c) + Count(b, c)
  {
    if |a| > 0 {
      assert (a + b)[1..] == a[1..] + b;
      CountConcat(a[1..], b, c);
    } else {
      assert a + b == b;
    }
  }

  /** A string without the separator splits into itself alone. */
  lemma SplitWithout(s: string, sep: char)
    requires sep !in s
    ensures Split(s, sep) == [s]
  {
    CountAbsent(s, sep);
  }

  /** The first separator ends the first part. */
  lemma {:induction false} SplitAround(a: string, sep: char, b: string)
    requires sep !in a
    ensures Split(a + [sep] + b, sep) == [a] + Split(b, sep)
  {
    var s := a + [sep] + b;
    if |a| == 0 {
      assert s == [sep] + b;
      assert s[1..] == b;
    } else {
      assert a[0] in a;
      assert forall x :: x in a[1..] ==> x in a;
      SplitAround(a[1..], sep, b);
      assert s[1..] == a[1..] + [sep] + b;
      assert [a[0]] + a[1..] == a;
    }
  }

  /** Split undoes Join on parts that are free of the separator. */
  lemma {:induction false} SplitJoin(parts: seq<string>, sep: char)
    requires |parts| >= 1
    requires forall i | 0 <= i < |parts| :: sep !in parts[i]
    ensures Split(Join(parts, sep), sep) == parts
  {
    if |parts| == 1 {
      SplitWithout(parts[0], sep);
    } else {
      SplitJoin(parts[1..], sep);
      SplitAround(parts[0], sep, Join(parts[1..], sep));
      assert [parts[0]] + parts[1..] == parts;
    }
  }

  /** `a + sep + b` splits into exactly `[a, b]` when neither side holds the separator. */
  lemma SplitPair(a: string, sep: char, b: string)
    requires sep !in a && sep !in b
    ensures Split(a + [sep] + b, sep) == [a, b]
  {
    SplitAround(a, sep, b);
    SplitWithout(b, sep);
  }

  // ---------------------------------------------------------------------------
  // Searching
  // ---------------------------------------------------------------------------

  /** `q` occurs in `s` as a contiguous substring (`'%q%'` read without wildcards). */
  predicate Contains(s: string, q: string) {
    exists i | 0 <= i <= |s| :: q <= s[i..]
  }

  /** A string occurs in any string that starts with it. */
  lemma ContainsPrefix(s: string, q: string)
    requires q <= s
    ensures Contains(s, q)
  {
    assert q <= s[0..];
  }

  /** A string holding a character that `s` lacks does not occur in `s`. */
  lemma MissingCharNotContained(s: string, q: string, c: char)
    requires c in q && c !in s
    ensures !Contains(s, q)
  {
    var j :| 0 <= j < |q| && q[j] == c;
    forall i | 0 <= i <= |s| ensures !(q <= s[i..]) {
      if |q| <= |s| - i {
        assert s[i..][j] == s[i + j];
        assert s[i + j] != c;
      }
    }
  }

  /** Index of the first `c` in `s`, if any. */
  function FirstIndex(s: string, c: char): (r: Option<nat>)
    ensures r.Some? ==> r.value < |s| && s[r.value] == c && c !in s[..r.value]
    ensures r.None? ==> c !in s
  {
    if |s| == 0 then None
    else if s[0] == c then Some(0)
    else
      match FirstIndex(s[1..], c)
      case None => None
      case Some(i) =>
        assert s[..i + 1] == [s[0]] + s[1..][..i];
        Some(i + 1)
  }

  /** Index of the last `c` in `s`, if any. */
  function LastIndex(s: string, c: char): (r: Option<nat>)
    ensures r.Some? ==> r.value < |s| && s[r.value] == c && c !in s[r.value + 1..]
    ensures r.None? ==> c !in s
  {
    if |s| == 0 then None
    else if s[|s| - 1] == c then Some(|s| - 1)
    else
      var init := s[..|s| - 1];
      assert s == init + [s[|s| - 1]];
      match LastIndex(init, c)
      case None => None
      case Some(i) =>
        assert s[i + 1..] == init[i + 1..] + [s[|s| - 1]];
        Some(i)
  }

  // ---------------------------------------------------------------------------
  // Character classes
  // ---------------------------------------------------------------------------

  predicate IsAsciiLetter(c: char) { ('a' <= c <= 'z') || ('A' <= c <= 'Z') }

  predicate IsDigit(c: char) { '0' <= c <= '9' }

  /** The alphabet of `hexdigest()`. */
  predicate IsLowerHex(c: char) { IsDigit(c) || ('a' <= c <= 'f') }

  /** What `hexdigest()` of SHA-256 returns: 64 lower-case hex digits. */
  predicate IsHexDigest(s: string) {
    |s| == 64 && forall i | 0 <= i < |s| :: IsLowerHex(s[i])
  }

  /** The alphabet of `base64.b64encode`. */
  predicate IsBase64Char(c: char) {
    IsAsciiLetter(c) || IsDigit(c) || c == '+' || c == '/' || c == '='
  }

  predicate IsBase64Text(s: string) {
    forall i | 0 <= i < |s| :: IsBase64Char(s[i])
  }

  /** Neither base64 text nor a hex digest contains the token separator or a space. */
  lemma Base64HasNoSeparators(s: string)
    requires IsBase64Text(s)
    ensures '.' !in s && ' ' !in s
  {
    assert forall i | 0 <= i < |s| :: s[i] != '.' && s[i] != ' ' by {
      forall i | 0 <= i < |s| ensures s[i] != '.' && s[i] != ' ' {
        assert IsBase64Char(s[i]);
      }
    }
  }

  lemma HexHasNoSeparators(s: string)
    requires IsHexDigest(s)
    ensures '.' !in s && ' ' !in s
  {
    assert forall i | 0 <= i < |s| :: s[i] != '.' && s[i] != ' ' by {
      forall i | 0 <= i < |s| ensures s[i] != '.' && s[i] != ' ' {
        assert IsLowerHex(s[i]);
      }
    }
  }

  /** The decimal digit for `d`. */
  function DigitChar(d: int): (c: char)
    requires 0 <= d < 10
    ensures IsDigit(c)
  {
    "0123456789"[d]
  }

  function NaturalText(n: nat): (r: string)
    ensures |r| > 0 && forall i | 0 <= i < |r| :: IsDigit(r[i])
  {
    if n < 10 then [DigitChar(n)] else NaturalText(n / 10) + [DigitChar(n % 10)]
  }

  /**
   * The text SQLite stores when an integer goes into a TEXT column:
   * an optional '-' and the decimal digits.
   */
  function DecimalText(n: int): (r: string)
    ensures |r| > 0
    ensures n >= 0 ==> forall i | 0 <= i < |r| :: IsDigit(r[i])
    ensures n < 0 ==> r[0] == '-' && forall i | 1 <= i < |r| :: IsDigit(r[i])
  {
    if n >= 0 then NaturalText(n) else "-" + NaturalText(-n)
  }
}

=== FILE: tokens.dfy ===
/**
 * The self-issued bearer token: `base64(json(payload)) + "." + hex(HMAC-SHA256)`,
 * with the MAC taken over the base64 text.
 */
module Tokens {
  import opened Results
  import opened Text
  import opened Externals
  import opened Settings

  /** The single message every verification failure surfaces as. */
  const InvalidTokenFormat := "Invalid token format"

  /** The payload `create_token` signs: the subject and `exp = now + TOKEN_EXPIRATION`. */
  function IssuedClaims(cfg: Config, now: int, userId: int): Claims {
    Claims(Some(userId), now + cfg.tokenExpiration)
  }

  /** `create_token(user_id)` at time `now` (whole seconds). */
  function CreateToken(p: Primitives, cfg: Config, now: int, userId: int): string {
    var payload := p.encode(IssuedClaims(cfg, now, userId));
    payload + "." + p.hexMac(cfg.secretKey, payload)
  }

  /**
   * `verify_token(token)` at time `now`. The token must split on '.' into
   * exactly two parts, the second must equal the MAC of the first, the first
   * must decode, and the payload must not have expired (`exp < now`).
   */
  function VerifyToken(p: Primitives, cfg: Config, now: int, token: string): (r: Result<Claims, string>)
    ensures r.Err? ==> r.error == InvalidTokenFormat
    ensures r.Ok? ==> now <= r.value.exp
    ensures Count(token, '.') != 1 ==> r.Err?
  {
    var parts := Split(token, '.');
    if |parts| != 2 then Err(InvalidTokenFormat)
    else if parts[1] != p.hexMac(cfg.secretKey, parts[0]) then Err(InvalidTokenFormat)
    else
      match p.decode(parts[0])
      case None => Err(InvalidTokenFormat)
      case Some(claims) => if claims.exp < now then Err(InvalidTokenFormat) else Ok(claims)
  }

  /**
   * A created token is the encoded payload, exactly one '.', then the MAC of
   * the encoded payload; the payload holds the subject and `now + TTL`.
   */
  lemma TokenShape(p: Primitives, cfg: Config, now: int, userId: int)
    requires Lawful(p)
    ensures var payload := p.encode(IssuedClaims(cfg, now, userId));
            && Split(CreateToken(p, cfg, now, userId), '.') == [payload, p.hexMac(cfg.secretKey, payload)]
            && Count(CreateToken(p, cfg, now, userId), '.') == 1
            && p.decode(payload) == Some(Claims(Some(userId), now + cfg.tokenExpiration))
            && ' ' !in CreateToken(p, cfg, now, userId)
  {
    var payload := p.encode(IssuedClaims(cfg, now, userId));
    var mac := p.hexMac(cfg.secretKey, payload);
    Base64HasNoSeparators(payload);
    HexHasNoSeparators(mac);
    SplitPair(payload, '.', mac);
    assert payload + "." + mac == payload + ['.'] + mac;
  }

  /**
   * Round trip and expiry boundary: a token created at `issuedAt` verifies
   * under the same secret, to its own payload, exactly while
   * `now <= issuedAt + TTL`; `exp == now` is still accepted.
   */
  lemma VerifyCreated(p: Primitives, cfg: Config, issuedAt: int, userId: int, now: int)
    requires Lawful(p)
    ensures now <= issuedAt + cfg.tokenExpiration ==>
              VerifyToken(p, cfg, now, CreateToken(p, cfg, issuedAt, userId))
                == Ok(Claims(Some(userId), issuedAt + cfg.tokenExpiration))
    ensures issuedAt + cfg.tokenExpiration < now ==>
              VerifyToken(p, cfg, now, CreateToken(p, cfg, issuedAt, userId)) == Err(InvalidTokenFormat)
  {
    TokenShape(p, cfg, issuedAt, userId);
  }

  /**
   * A token whose second part is not the MAC of its first part is rejected,
   * whatever the decoder would make of the first part.
   */
  lemma ForgedSignatureRejected(p: Primitives, cfg: Config, now: int, payload: string, signature: string)
    requires '.' !in payload && '.' !in signature
    requires signature != p.hexMac(cfg.secretKey, payload)
    ensures VerifyToken(p, cfg, now, payload + "." + signature) == Err(InvalidTokenFormat)
  {
    SplitPair(payload, '.', signature);
    assert payload + "." + signature == payload + ['.'] + signature;
  }

  /**
   * A token whose payload part or signature part is empty is refused: an
   * empty signature is never the 64-character MAC, and an empty payload
   * decodes to nothing.
   */
  lemma EmptyPartRefused(p: Primitives, cfg: Config, now: int, payload: string, signature: string)
    requires Lawful(p)
    requires '.' !in payload && '.' !in signature
    requires payload == "" || signature == ""
    ensures VerifyToken(p, cfg, now, payload + "." + signature) == Err(InvalidTokenFormat)
  {
    assert payload + "." + signature == payload + ['.'] + signature;
    SplitPair(payload, '.', signature);
  }

  /**
   * An accepted token is some separator-free text, '.', and the MAC of that
   * text under the secret, and the returned payload is that text decoded.
   */
  lemma AcceptedTokensAreSigned(p: Primitives, cfg: Config, now: int, token: string)
    requires VerifyToken(p, cfg, now, token).Ok?
    ensures exists payload: string ::
              && '.' !in payload
              && token == payload + "." + p.hexMac(cfg.secretKey, payload)
              && p.decode(payload) == Some(VerifyToken(p, cfg, now, token).value)
  {
    var parts := Split(token, '.');
    assert Join(parts, '.') == parts[0] + ['.'] + Join(parts[1..], '.');
    assert parts[1..] == [parts[1]];
    var payload := parts[0];
    assert '.' !in payload;
    assert token == payload + "." + p.hexMac(cfg.secretKey, payload);
  }
}
